=== FILE: README.md ===
# Nanofactory recipe resolver, modelled in Dafny

The system answers two questions about a list of chemical recipes of the form
`7 A, 1 B => 1 C`:

- how much ORE one unit of FUEL takes;
- how much FUEL a given budget of ORE buys.

It has three parts, and the model follows the same split.

- **Recipe graph** (`recipe_graph.dfy`, module `RecipeGraph`). The graph is a
  dictionary from reagent name to node. Each node holds a batch size and two
  adjacency lists:
  - `uses`: the ingredients the reagent is made from;
  - `usedIn`: the reagents that consume it.

  Construction runs in two passes:
  1. Declare ORE, then one node per recipe. A later recipe for the same
     product replaces the earlier node.
  2. Resolve every collected link by name and append it to both lists. A link
     whose ingredient was never declared makes construction fail.
- **Cost resolver** (`cost_resolver.dfy`, module `CostResolver`).
  `Requirement` is `TotalPerCraft`: how many units of one reagent an amount of
  another takes.
  - Every consumer's own requirement is rounded up to whole batches with C#'s
    truncating `/` and `%` (module `CsArith`, `cs_arith.dfy`).
  - The rounded batch counts are multiplied by the per-batch amount and summed.
  - A map of heights, where every consumer sits strictly lower, witnesses
    that the graph has no cycle. The heights are also the termination
    measure.
- **Yield search** (`yield_search.dfy`, module `YieldSearch`).
  - A doubling phase (`Bracket`) runs until the trial costs more than half
    the budget.
  - A converge phase (`Converge`) steps forward by
    `max(1, floor((budget - used) / (budget / fuels)))` until the trial costs
    at least the budget.
  - The answer is the last trial minus one (`AmountOfFuelFromOre`).
  - `MaxFuel` is the corrected search; see Findings.

`scenarios.dfy` (module `Scenarios`) holds concrete recipe lists:
- single-recipe and two-recipe graphs, built and costed;
- a construction failure;
- the published 31-ore example;
- the two inputs on which the search misses the largest affordable amount.

## Model

| member | source | states |
|---|---|---|
| CsArith.TruncDivRem | AoC2019/Day14.cs:42 | C#'s remainder is smaller in magnitude than the divisor and has the sign of the dividend |
| CsArith.Batches | AoC2019/Day14.cs:42 | the truncating quotient-plus-carry batch count covers the required units (`batches * size >= required`) with no spare batch (`(batches - 1) * size < required`), and is never negative for a non-negative need |
| CsArith.BatchesIsCeilDiv | AoC2019/Day14.cs:42 | the truncating quotient-plus-remainder formula equals the ceiling of required/size for every integer, negative needs included |
| CsArith.BatchesMonotone | AoC2019/Day14.cs:42 | needing more units never means fewer batches |
| CsArith.BatchesZero | AoC2019/Day14.cs:42 | zero units need zero batches, and a batch count of zero or less arises only from a need of zero or less |
| RecipeGraph.DeclareNodes | AoC2019/Day14.cs:52-58 | the first pass declares exactly ORE plus every product, each node under its own name, with both adjacency lists empty |
| RecipeGraph.DeclaredBatchSizes | AoC2019/Day14.cs:52-58 | every product keeps the batch size of the last recipe producing it; ORE has batch size 1 unless a recipe produces ORE |
| RecipeGraph.RecipeLinks | AoC2019/Day14.cs:59-63 | one recipe contributes one link per ingredient, in ingredient order: link `i` runs from ingredient `i`, at its per-batch amount, to the recipe's product |
| RecipeGraph.CollectLinks | AoC2019/Day14.cs:54-63 | every collected link comes from some recipe's ingredient line, and every ingredient line of every recipe is collected |
| RecipeGraph.AdjacencyAppend | AoC2019/Day14.cs:66-71 | the links are processed in order: the entries a node gets from two runs of links are those of the first run followed by those of the second |
| RecipeGraph.AdjacencyMembers | AoC2019/Day14.cs:66-71 | a node has consumer entry `(y, c)` exactly when a link `(x, c, y)` was collected, and ingredient entry `(y, c)` exactly when a link `(y, c, x)` was |
| RecipeGraph.AddLink | AoC2019/Day14.cs:68-70 | adding a link succeeds exactly when both endpoints are declared; a failure names a missing endpoint; the set of nodes is unchanged |
| RecipeGraph.AddLinkEffect | AoC2019/Day14.cs:68-70 | one link appends `(to, cost)` to `from`'s consumers and `(from, cost)` to `to`'s ingredients; names, batch sizes and every other list are unchanged |
| RecipeGraph.AddLinks | AoC2019/Day14.cs:66-71 | the second pass resolves the links in order and, when it succeeds, neither adds nor removes a node |
| RecipeGraph.AddLinksOutcome | AoC2019/Day14.cs:66-71 | the second pass succeeds exactly when every link joins two declared nodes; otherwise it reports an undeclared endpoint of some link |
| RecipeGraph.AddLinksAdjacency | AoC2019/Day14.cs:66-71 | after the second pass each node keeps its name and batch size, and each of its two lists has grown by exactly the entries its links give it, in link order |
| RecipeGraph.Build | AoC2019/Day14.cs:49-72 | construction fails exactly when some ingredient is neither ORE nor a product, and the failure names such an ingredient |
| RecipeGraph.BuiltGraphShape | AoC2019/Day14.cs:49-72 | a built graph holds ORE and every product, each named by its key, with the last recipe's batch size, ORE at batch size 1 unless produced, and adjacency lists equal to the entries its links give it |
| RecipeGraph.AdjacencySymmetric | AoC2019/Day14.cs:66-71 | `(y, c)` occurs among `x`'s consumers exactly as often as `(x, c)` occurs among `y`'s ingredients: once per link `(x, c, y)` |
| RecipeGraph.BuiltAdjacencySymmetric | AoC2019/Day14.cs:66-71 | in a built graph the two lists mirror each other in multiplicity and membership, and every entry names a node of the graph |
| RecipeGraph.EveryRecipeLinksToSurvivor | AoC2019/Day14.cs:58-71 | even a recipe replaced by a later one for the same product has its ingredients linked to the surviving node, on both sides |
| CostResolver.Requirement | AoC2019/Day14.cs:38-44 | with non-negative per-batch amounts, a non-negative request never needs a negative amount of any reagent |
| CostResolver.ConsumerSum | AoC2019/Day14.cs:39-43 | the sum over the first `k` consumers of rounded-up batches times per-batch amounts is never negative when no amount is negative and the request is non-negative |
| CostResolver.TargetNeedsItsAmount | AoC2019/Day14.cs:39 | asking a reagent for itself returns the amount asked for |
| CostResolver.UnusedNeedsNothing | AoC2019/Day14.cs:39 | a reagent other than the target that nothing consumes is not needed at all |
| CostResolver.RequirementMonotone | AoC2019/Day14.cs:38-44 | asking for more of the target never lowers the requirement of any reagent |
| CostResolver.ZeroForOneIsZeroForAll | AoC2019/Day14.cs:38-44 | a reagent not needed for one unit of the target is not needed for any non-negative amount of it |
| CostResolver.OneLevelChain | AoC2019/Day14.cs:39-43 | an ingredient consumed only by the target, `k` per batch of `n`, is needed `k * ceil(m / n)` times for `m` units |
| CostResolver.SingleConsumer | AoC2019/Day14.cs:39-43 | a reagent with a single consumer `(y, k)` needs `ceil(requirement of y / batch size of y) * k`, against the textbook ceiling rather than the truncating formula |
| CostResolver.SharedIngredient | AoC2019/Day14.cs:39-43 | with two consumers, each is rounded to its own whole batches and the two contributions add up |
| YieldSearch.Cost | AoC2019/Day14.cs:85 | the ore for a non-negative number of fuels, the resolver's ORE requirement for FUEL, is never negative when no per-batch amount is |
| YieldSearch.TotalOreUsedInOneFuel | AoC2019/Day14.cs:74 | the ore for one fuel is never negative when per-batch amounts are not |
| YieldSearch.OneFuelIsCheapest | AoC2019/Day14.cs:74 | any positive amount of fuel costs at least the ore for one, and costs nothing when one fuel needs no ore |
| YieldSearch.Bracket | AoC2019/Day14.cs:83-88 | the doubling phase ends on a trial costing more than half the budget, and the trial before it (half of it) did not |
| YieldSearch.BracketIsDoubling | AoC2019/Day14.cs:83-88 | the doubling phase returns the start doubled some `k` times, where every earlier doubling cost no more than half the budget, so it is the first doubling that costs more |
| YieldSearch.Step | AoC2019/Day14.cs:93 | every converge step is at least 1; it is the largest `s` with `s * budget <= (budget - used) * fuels`, or 1 when no `s >= 1` meets that bound, so one step more would always exceed it |
| YieldSearch.Converge | AoC2019/Day14.cs:91-95 | the converge phase ends on a trial costing at least the budget, and strictly advances whenever the current trial is affordable |
| YieldSearch.ConvergeLastStep | AoC2019/Day14.cs:91-95 | the converge phase ends either where it started or exactly one step past an affordable trial at or after its start |
| YieldSearch.AmountOfFuelFromOre | AoC2019/Day14.cs:76-99 | the answer is never negative, and one more fuel than the answer costs at least the budget |
| YieldSearch.AnswerLastStep | AoC2019/Day14.cs:76-99 | the answer plus one is either the trial the doubling phase ended on, or exactly one converge step past an affordable trial |
| YieldSearch.ZeroYieldBoundary | AoC2019/Day14.cs:76-99 | when a single fuel already costs the whole budget, the answer is 0 |
| YieldSearch.YieldCoversCheaperAmounts | AoC2019/Day14.cs:91-98 | every amount of fuel that costs strictly less than the budget is at most the answer |
| YieldSearch.MaxFuel | AoC2019/Day14.cs:76-99 | corrected search: returns the largest amount of fuel whose cost fits the budget; one more costs too much, and no affordable amount exceeds it |
| Scenarios.DirectBuilds | AoC2019/Day14.cs:49-72 | `k ORE => n FUEL` builds the two-node graph with each link on both sides |
| Scenarios.DirectCost | AoC2019/Day14.cs:38-44 | `k ORE => n FUEL` costs `k * ceil(m / n)` ore for `m` fuel |
| Scenarios.UndeclaredIngredientFails | AoC2019/Day14.cs:68 | `1 X => 1 FUEL` with no recipe for X fails on X |
| Scenarios.ChainBuilds | AoC2019/Day14.cs:49-72 | `k ORE => n A; 1 A => 1 FUEL` builds the three-node chain |
| Scenarios.ChainCost | AoC2019/Day14.cs:38-44 | the chain costs `k * ceil(m / n)` ore for `m` fuel |
| Scenarios.MinimalChainScenario | AoC2019/Day14.cs:74 | `1 ORE => 1 A; 1 A => 1 FUEL`: one fuel takes one ore |
| Scenarios.BatchRoundingScenario | AoC2019/Day14.cs:74 | `10 ORE => 10 A; 1 A => 1 FUEL`: one fuel takes a whole batch, ten ore |
| Scenarios.PublishedBuilds | AoC2019/Day14.cs:49-72 | construction from the published six recipes succeeds and yields exactly the published graph |
| Scenarios.PublishedExampleCost | AoC2019/Day14.cs:74 | the published six-recipe example takes 31 ore per fuel, both as the literal graph and as built from its recipes: A's four consumers need 28 units, three batches of ten |
| Scenarios.ExactBudgetMissed | AoC2019/Day14.cs:91-98 | `1 ORE => 1 FUEL` with 10 ore: ten fuel are affordable, yet the search answers 9 |
| Scenarios.OvershootPastBudget | AoC2019/Day14.cs:93-98 | `10 ORE => 10 FUEL` with 25 ore: the search answers 21, which costs 30 ore, while 20 fuel fit the budget |
| Scenarios.ExactBudgetCorrected | AoC2019/Day14.cs:76-99 | any answer meeting the corrected search's postcondition for `1 ORE => 1 FUEL` with 10 ore is 10 |
| Scenarios.OvershootCorrected | AoC2019/Day14.cs:76-99 | any answer meeting the corrected search's postcondition for `10 ORE => 10 FUEL` with 25 ore is 20 |

## Left out

- Text parsing is not modelled: `ParseReagent`, `string.Split` and `int.Parse` (AoC2019/Day14.cs:54-63 and 101-105). The input is a list of `Recipe` records.
- The `Day14` harness and the `ToString` formatting (AoC2019/Day14.cs:8-17) are I/O adapters and are not modelled.
- Step: the step is computed in exact integer arithmetic as `((budget - used) * fuels) / budget`. The source computes it in `double` with `Math.Floor` and an `(int)` cast (AoC2019/Day14.cs:93). Floating-point rounding and the cast's truncation are not modelled.
- Fixed-width integers are not modelled. The source uses 32-bit `int` for batch sizes, per-batch amounts and `fuels`, and 64-bit `long` for totals; all are unbounded here, so overflow of the doubling or of the sums is not represented.
- Requirement: it requires a height map (`Layered`) over the whole graph, with positive batch sizes and every consumer strictly lower. That is more than the source needs. `TotalPerCraft` returns as soon as it reaches the target (AoC2019/Day14.cs:39) and visits only the consumers reachable from the queried reagent. So a cycle outside that part, or one closed through the target, does no harm there, and a zero batch size throws only on a consumer actually visited. For example, `1 ORE, 1 X => 1 FUEL; 1 FUEL => 1 X` has the cycle FUEL to X to FUEL, yet the source returns `m` ore for `m` fuel. The model excludes such inputs, as well as the graphs on which the source does recurse without end.
- Bracket, Converge and AmountOfFuelFromOre take a bound witness (`Searchable`): a trial costing more than the budget, on a graph with non-negative per-batch amounts. When no such trial exists, for example when FUEL does not depend on ORE, the source loops forever; that non-termination is not modelled.
- Converge and AmountOfFuelFromOre: their own contracts give only the lower side of the stopping point (the last trial costs at least the budget); the upper side, that it lies one step past an affordable trial, is stated by `ConvergeLastStep` and `AnswerLastStep`.
- CollectLinks: its contract states membership in both directions; that the links come recipe by recipe, in recipe order and ingredient order, is its definition and is not stated as a separate law (`CollectLinksAppend` is a helper that unfolds it).
- Build reports only the undeclared-ingredient failure. The source throws `KeyNotFoundException` at the same lookup (AoC2019/Day14.cs:68). The model does not represent a missing `=>`, a malformed line or a failed number parse.
- In these cases the model follows the code, where a caller might expect an error:
  - a second recipe for the same product silently replaces the first (AoC2019/Day14.cs:58) and is not a construction error;
  - asking for a target that is not in the graph yields 0 rather than an error;
  - negative amounts and budgets are not rejected;
  - a recipe that produces ORE replaces the ORE node.
- The `uses` lists are built and proved to mirror `usedIn`. No query reads them, because the resolver walks only `usedIn`.

## Findings

| source | as written | input that shows it | evidently intended | confidence | as-written member | corrected member |
|---|---|---|---|---|---|---|
| AoC2019/Day14.cs:91-98 | the converge loop stops once the trial costs at least the budget and returns the trial minus one, so a trial costing exactly the budget is thrown away | `1 ORE => 1 FUEL` with 10 ore: the answer is 9 although 10 fuel cost exactly 10 ore | the largest amount of fuel whose cost is at most the budget (10) | not executed | Scenarios.ExactBudgetMissed | YieldSearch.MaxFuel |
| AoC2019/Day14.cs:93-98 | a converge step larger than one can jump several units past the last affordable amount, and only one is taken back | `10 ORE => 10 FUEL` with 25 ore: steps of three go 16, 19, 22, and the answer 21 costs 30 ore | the largest affordable amount (20) | not executed | Scenarios.OvershootPastBudget | YieldSearch.MaxFuel |

`Scenarios.ExactBudgetCorrected` and `Scenarios.OvershootCorrected` pin the corrected answers on the same two inputs: 10 and 20.

=== FILE: cost_resolver.dfy ===
/**
 The cost resolver: how many units of one reagent a requested amount of
 another reagent takes, rounding every consumer up to whole batches.
 */
module CostResolver {
  import opened CsArith
  import opened RecipeGraph

  /** A height per reagent, used as the termination measure of the resolver. */
  type Heights = map<string, nat>

  /** `h` witnesses that the graph is fit for resolving: every consumer entry
      names a node sitting strictly lower, so the consumer relation has no
      cycle, and every batch size is positive. */
  predicate Layered(g: Graph, h: Heights)
  {
    && g.Keys <= h.Keys
    && (forall x :: x in g ==> g[x].batchSize > 0)
    && (forall x, e :: x in g && e in g[x].usedIn ==> e.node in g && h[e.node] < h[x])
  }

  /** No recipe asks for a negative amount of an ingredient. */
  predicate NonNegative(g: Graph)
  {
    forall x, e :: x in g && e in g[x].usedIn ==> e.perBatch >= 0
  }

  /** Units of reagent `x` needed to make `amount` units of `reagent`: the
      amount itself when `x` is that reagent, otherwise the sum over the
      consumers of `x`. */
  function Requirement(g: Graph, h: Heights, x: string, reagent: string, amount: int): (r: int)
    requires Layered(g, h) && x in g
    ensures NonNegative(g) && amount >= 0 ==> r >= 0
    decreases h[x], 1, 0
  {
    if g[x].name == reagent then amount
    else ConsumerSum(g, h, x, |g[x].usedIn|, reagent, amount)
  }

  /** The contribution of the first `k` consumers of `x`: each consumer's own
      requirement rounded up to whole batches, times the per-batch amount. */
  function ConsumerSum(g: Graph, h: Heights, x: string, k: nat, reagent: string, amount: int): (r: int)
    requires Layered(g, h) && x in g && k <= |g[x].usedIn|
    ensures NonNegative(g) && amount >= 0 ==> r >= 0
    decreases h[x], 0, k
  {
    if k == 0 then 0
    else
      var e := g[x].usedIn[k - 1];
      var required := Requirement(g, h, e.node, reagent, amount);
      ConsumerSum(g, h, x, k - 1, reagent, amount) + Batches(required, g[e.node].batchSize) * e.perBatch
  }

  /** Asking a reagent for itself returns the amount asked for. */
  lemma TargetNeedsItsAmount(g: Graph, h: Heights, x: string, reagent: string, amount: int)
    requires Layered(g, h) && x in g && g[x].name == reagent
    ensures Requirement(g, h, x, reagent, amount) == amount
  {
  }

  /** A reagent other than the target that nothing consumes is not needed. */
  lemma UnusedNeedsNothing(g: Graph, h: Heights, x: string, reagent: string, amount: int)
    requires Layered(g, h) && x in g && g[x].name != reagent && g[x].usedIn == []
    ensures Requirement(g, h, x, reagent, amount) == 0
  {
  }

  /** Asking for more of the target never lowers the requirement. */
  lemma {:induction false} RequirementMonotone(g: Graph, h: Heights, x: string, reagent: string, a1: int, a2: int)
    requires Layered(g, h) && NonNegative(g) && x in g && a1 <= a2
    ensures Requirement(g, h, x, reagent, a1) <= Requirement(g, h, x, reagent, a2)
    decreases h[x], 1, 0
  {
    if g[x].name != reagent {
      ConsumerSumMonotone(g, h, x, |g[x].usedIn|, reagent, a1, a2);
    }
  }

  lemma {:induction false} ConsumerSumMonotone(g: Graph, h: Heights, x: string, k: nat, reagent: string, a1: int, a2: int)
    requires Layered(g, h) && NonNegative(g) && x in g && k <= |g[x].usedIn| && a1 <= a2
    ensures ConsumerSum(g, h, x, k, reagent, a1) <= ConsumerSum(g, h, x, k, reagent, a2)
    decreases h[x], 0, k
  {
    if k > 0 {
      var e := g[x].usedIn[k - 1];
      ConsumerSumMonotone(g, h, x, k - 1, reagent, a1, a2);
      RequirementMonotone(g, h, e.node, reagent, a1, a2);
      var size := g[e.node].batchSize;
      BatchesMonotone(Requirement(g, h, e.node, reagent, a1), Requirement(g, h, e.node, reagent, a2), size);
      MulLe(Batches(Requirement(g, h, e.node, reagent, a1), size), Batches(Requirement(g, h, e.node, reagent, a2), size), e.perBatch);
    }
  }

  /** A reagent not needed at all for one unit of the target is not needed
      for any amount of it. */
  lemma {:induction false} ZeroForOneIsZeroForAll(g: Graph, h: Heights, x: string, reagent: string, n: int)
    requires Layered(g, h) && NonNegative(g) && x in g && n >= 0
    requires Requirement(g, h, x, reagent, 1) == 0
    ensures Requirement(g, h, x, reagent, n) == 0
    decreases h[x], 1, 0
  {
    if g[x].name != reagent {
      ConsumerSumZero(g, h, x, |g[x].usedIn|, reagent, n);
    }
  }

  lemma {:induction false} ConsumerSumZero(g: Graph, h: Heights, x: string, k: nat, reagent: string, n: int)
    requires Layered(g, h) && NonNegative(g) && x in g && k <= |g[x].usedIn| && n >= 0
    requires ConsumerSum(g, h, x, k, reagent, 1) == 0
    ensures ConsumerSum(g, h, x, k, reagent, n) == 0
    decreases h[x], 0, k
  {
    if k > 0 {
      var e := g[x].usedIn[k - 1];
      var size := g[e.node].batchSize;
      var one := Requirement(g, h, e.node, reagent, 1);
      assert e in g[x].usedIn;
      MulLe(0, Batches(one, size), e.perBatch);
      assert ConsumerSum(g, h, x, k - 1, reagent, 1) >= 0 && Batches(one, size) * e.perBatch >= 0;
      ConsumerSumZero(g, h, x, k - 1, reagent, n);
      if e.perBatch != 0 {
        assert Batches(one, size) == 0;
        BatchesZero(one, size);
        ZeroForOneIsZeroForAll(g, h, e.node, reagent, n);
        BatchesZero(0, size);
      }
    }
  }

  /** One level of rounding: an ingredient consumed only by the target, `k`
      units per batch of `n`, is needed `k * ceil(m / n)` times for `m` units. */
  lemma OneLevelChain(g: Graph, h: Heights, i: string, p: string, k: int, reagent: string, m: int)
    requires Layered(g, h) && i in g && p in g
    requires g[i].name != reagent && g[i].usedIn == [Edge(p, k)] && g[p].name == reagent
    ensures Requirement(g, h, i, reagent, m) == k * CeilDiv(m, g[p].batchSize)
  {
    var n := g[p].batchSize;
    BatchesIsCeilDiv(m, n);
    assert Requirement(g, h, p, reagent, m) == m;
    assert ConsumerSum(g, h, i, 1, reagent, m) == ConsumerSum(g, h, i, 0, reagent, m) + Batches(m, n) * k;
    assert Requirement(g, h, i, reagent, m) == ConsumerSum(g, h, i, 1, reagent, m);
  }

  /** A reagent with a single consumer needs the ceiling of that consumer's
      requirement over its batch size, times the per-batch amount. */
  lemma SingleConsumer(g: Graph, h: Heights, x: string, y: string, k: int, reagent: string, m: int)
    requires Layered(g, h) && x in g && y in g
    requires g[x].name != reagent && g[x].usedIn == [Edge(y, k)]
    ensures Requirement(g, h, x, reagent, m) == CeilDiv(Requirement(g, h, y, reagent, m), g[y].batchSize) * k
  {
    var ry := Requirement(g, h, y, reagent, m);
    assert ConsumerSum(g, h, x, 1, reagent, m) == ConsumerSum(g, h, x, 0, reagent, m) + Batches(ry, g[y].batchSize) * k;
    BatchesIsCeilDiv(ry, g[y].batchSize);
  }

  /** Two consumers sharing one ingredient: each consumer is rounded to its own
      whole batches and the two contributions add up. */
  lemma SharedIngredient(g: Graph, h: Heights, a: string, b: string, kb: int, c: string, kc: int, reagent: string, m: int)
    requires Layered(g, h) && a in g && b in g && c in g
    requires g[a].name != reagent && g[a].usedIn == [Edge(b, kb), Edge(c, kc)]
    ensures Requirement(g, h, a, reagent, m)
            == kb * CeilDiv(Requirement(g, h, b, reagent, m), g[b].batchSize)
             + kc * CeilDiv(Requirement(g, h, c, reagent, m), g[c].batchSize)
  {
    var rb := Requirement(g, h, b, reagent, m);
    var rc := Requirement(g, h, c, reagent, m);
    BatchesIsCeilDiv(rb, g[b].batchSize);
    BatchesIsCeilDiv(rc, g[c].batchSize);
    var one := ConsumerSum(g, h, a, 1, reagent, m);
    assert one == ConsumerSum(g, h, a, 0, reagent, m) + Batches(rb, g[b].batchSize) * kb;
    assert ConsumerSum(g, h, a, 2, reagent, m) == one + Batches(rc, g[c].batchSize) * kc;
    assert Requirement(g, h, a, reagent, m) == ConsumerSum(g, h, a, 2, reagent, m);
  }
}

=== FILE: cs_arith.dfy ===
/**
 Integer arithmetic as the recipe resolver performs it: C#'s truncating
 division and remainder, and the batch count built from them.
 */
module CsArith {

  function Abs(a: int): nat
  {
    if a < 0 then -a else a
  }

  function Max(a: int, b: int): (m: int)
    ensures m >= a && m >= b
    ensures m == a || m == b
  {
    if a >= b then a else b
  }

  /** C#'s integer `/`: the exact quotient rounded toward zero. */
  function TruncDiv(a: int, b: int): int
    requires b != 0
  {
    var q := Abs(a) / Abs(b);
    if (a < 0) == (b < 0) then q else -q
  }

  /** C#'s integer `%`: what is left of `a` after taking TruncDiv(a, b) times `b`. */
  function TruncRem(a: int, b: int): int
    requires b != 0
  {
    a - b * TruncDiv(a, b)
  }

  /** The remainder is smaller than the divisor and carries the sign of the
      dividend, which is how the C# language defines `/` and `%`. */
  lemma TruncDivRem(a: int, b: int)
    requires b != 0
    ensures Abs(TruncRem(a, b)) < Abs(b)
    ensures a >= 0 ==> TruncRem(a, b) >= 0
    ensures a <= 0 ==> TruncRem(a, b) <= 0
  {
    if a >= 0 {
      RemOfNonNegative(a, b);
    } else {
      RemOfNegative(a, b);
    }
  }

  lemma RemOfNonNegative(a: int, b: int)
    requires a >= 0 && b != 0
    ensures TruncRem(a, b) == a % Abs(b)
  {
    var B := Abs(b);
    var q := a / B;
    assert a == B * q + a % B;
    if b > 0 {
      assert TruncDiv(a, b) == q;
    } else {
      assert TruncDiv(a, b) == -q;
      MulNeg(B, q);
      assert b * (-q) == B * q;
    }
  }

  lemma RemOfNegative(a: int, b: int)
    requires a < 0 && b != 0
    ensures TruncRem(a, b) == -((-a) % Abs(b))
  {
    var B := Abs(b);
    var q := (-a) / B;
    assert -a == B * q + (-a) % B;
    if b > 0 {
      assert TruncDiv(a, b) == -q;
      MulNeg(b, q);
    } else {
      assert TruncDiv(a, b) == q;
      MulNeg(B, q);
      assert b * q == -(B * q);
    }
  }

  lemma MulNeg(x: int, y: int)
    ensures x * -y == -(x * y) && (-x) * y == -(x * y)
  {
  }

  lemma MulLe(a: int, b: int, k: int)
    requires a <= b && k >= 0
    ensures a * k <= b * k
  {
    assert b * k - a * k == (b - a) * k;
  }

  /** Whole batches of size `size` needed to hold `required` units, written
      the way the resolver writes it: the truncated quotient, plus one when
      the remainder is positive. The batches hold what is required with no
      spare batch, and the count is never negative for a non-negative need. */
  function Batches(required: int, size: int): (b: int)
    requires size > 0
    ensures b * size >= required
    ensures (b - 1) * size < required
    ensures required >= 0 ==> b >= 0
  {
    TruncDivRem(required, size);
    var q := TruncDiv(required, size);
    var rem := TruncRem(required, size);
    assert required == q * size + rem;
    assert (q + 1) * size == q * size + size;
    assert (q - 1) * size == q * size - size;
    q + (if rem > 0 then 1 else 0)
  }

  /** The textbook ceiling of a/n for a positive n, on Euclidean division. */
  function CeilDiv(a: int, n: int): int
    requires n > 0
  {
    (a + n - 1) / n
  }

  /** Two batch counts that both cover `required` without a spare batch are equal. */
  lemma BatchCountUnique(required: int, size: int, b1: int, b2: int)
    requires size > 0
    requires b1 * size >= required && (b1 - 1) * size < required
    requires b2 * size >= required && (b2 - 1) * size < required
    ensures b1 == b2
  {
    if b1 < b2 {
      MulLe(b1, b2 - 1, size);
    } else if b2 < b1 {
      MulLe(b2, b1 - 1, size);
    }
  }

  /** The resolver's truncating formula agrees with the ceiling on every
      integer, negative ones included. */
  lemma BatchesIsCeilDiv(required: int, size: int)
    requires size > 0
    ensures Batches(required, size) == CeilDiv(required, size)
  {
    var c := CeilDiv(required, size);
    var m := (required + size - 1) % size;
    assert required + size - 1 == c * size + m && 0 <= m < size;
    assert (c - 1) * size == c * size - size;
    BatchCountUnique(required, size, Batches(required, size), c);
  }

  /** Needing more never means fewer batches. */
  lemma BatchesMonotone(r1: int, r2: int, size: int)
    requires size > 0 && r1 <= r2
    ensures Batches(r1, size) <= Batches(r2, size)
  {
    var b1 := Batches(r1, size);
    var b2 := Batches(r2, size);
    if b2 < b1 {
      MulLe(b2, b1 - 1, size);
    }
  }

  /** No units needed means no batch; a non-positive batch count means nothing was needed. */
  lemma BatchesZero(required: int, size: int)
    requires size > 0
    ensures required == 0 ==> Batches(required, size) == 0
    ensures Batches(required, size) <= 0 ==> required <= 0
  {
    var b := Batches(required, size);
    if required == 0 && b >= 1 {
      MulLe(1, b, size);
    }
    if b <= 0 {
      MulLe(b, 0, size);
    }
  }
}

=== FILE: recipe_graph.dfy ===
/**
 The recipe graph: one node per reagent, holding its batch size and two
 adjacency lists kept in step, `uses` (what the reagent is made from) and
 `usedIn` (what consumes it). Nodes refer to each other by name.
 */
module RecipeGraph {

  /** One ingredient line of a recipe: `perBatch` units of `name`. */
  datatype Ingredient = Ingredient(name: string, perBatch: int)

  /** A recipe record: one batch of `product` yields `batchSize` units and
      consumes the listed ingredients. */
  datatype Recipe = Recipe(product: string, batchSize: int, ingredients: seq<Ingredient>)

  /** An adjacency entry: the other endpoint and the per-batch amount. */
  datatype Edge = Edge(node: string, perBatch: int)

  datatype Node = Node(name: string, batchSize: int, uses: seq<Edge>, usedIn: seq<Edge>)

  type Graph = map<string, Node>

  /** A collected link: one batch of `to` consumes `cost` units of `from`. */
  datatype Link = Link(from: string, cost: int, to: string)

  datatype BuildError = UnknownReagent(name: string)

  datatype Result<T> = Success(value: T) | Failure(error: BuildError)

  const Ore: string := "ORE"
  const Fuel: string := "FUEL"

  function Products(recipes: seq<Recipe>): set<string>
  {
    set r | r in recipes :: r.product
  }

  /** Recipe `i` is the last one in the list that produces its product. */
  predicate IsLastRecipeFor(recipes: seq<Recipe>, i: int)
    requires 0 <= i < |recipes|
  {
    forall j :: i < j < |recipes| ==> recipes[j].product != recipes[i].product
  }

  /** First pass: the ORE node, then one fresh node per recipe, a later
      recipe for the same product replacing the earlier node. */
  function DeclareNodes(recipes: seq<Recipe>): (nodes: Graph)
    ensures nodes.Keys == {Ore} + Products(recipes)
    ensures forall x :: x in nodes ==> nodes[x].name == x && nodes[x].uses == [] && nodes[x].usedIn == []
  {
    if recipes == [] then
      map[Ore := Node(Ore, 1, [], [])]
    else
      var init := recipes[..|recipes| - 1];
      var last := recipes[|recipes| - 1];
      assert recipes == init + [last];
      DeclareNodes(init)[last.product := Node(last.product, last.batchSize, [], [])]
  }

  /** Each declared node has the batch size of the last recipe producing it;
      ORE keeps batch size 1 unless some recipe produces ORE. */
  lemma {:induction false} DeclaredBatchSizes(recipes: seq<Recipe>)
    ensures Ore !in Products(recipes) ==> DeclareNodes(recipes)[Ore].batchSize == 1
    ensures forall i :: 0 <= i < |recipes| && IsLastRecipeFor(recipes, i) ==>
              DeclareNodes(recipes)[recipes[i].product].batchSize == recipes[i].batchSize
  {
    if recipes != [] {
      var init := recipes[..|recipes| - 1];
      var last := recipes[|recipes| - 1];
      assert recipes == init + [last];
      DeclaredBatchSizes(init);
      forall i | 0 <= i < |recipes| && IsLastRecipeFor(recipes, i)
        ensures DeclareNodes(recipes)[recipes[i].product].batchSize == recipes[i].batchSize
      {
        if i < |init| {
          assert recipes[i] == init[i];
          assert recipes[|recipes| - 1].product != recipes[i].product;
          assert IsLastRecipeFor(init, i);
        }
      }
    }
  }

  /** The links one recipe contributes, in ingredient order. */
  function RecipeLinks(product: string, ingredients: seq<Ingredient>): (links: seq<Link>)
    ensures |links| == |ingredients|
    ensures forall i :: 0 <= i < |ingredients| ==> links[i] == Link(ingredients[i].name, ingredients[i].perBatch, product)
    ensures forall l :: l in links ==> l.to == product && Ingredient(l.from, l.cost) in ingredients
    ensures forall ing :: ing in ingredients ==> Link(ing.name, ing.perBatch, product) in links
  {
    if ingredients == [] then []
    else
      var init := ingredients[..|ingredients| - 1];
      var last := ingredients[|ingredients| - 1];
      assert ingredients == init + [last];
      RecipeLinks(product, init) + [Link(last.name, last.perBatch, product)]
  }

  /** All links, recipe by recipe. */
  function CollectLinks(recipes: seq<Recipe>): (links: seq<Link>)
    ensures forall l :: l in links ==>
              exists r :: r in recipes && r.product == l.to && Ingredient(l.from, l.cost) in r.ingredients
    ensures forall r, ing :: r in recipes && ing in r.ingredients ==>
              Link(ing.name, ing.perBatch, r.product) in links
  {
    if recipes == [] then []
    else
      var init := recipes[..|recipes| - 1];
      var last := recipes[|recipes| - 1];
      assert recipes == init + [last];
      CollectLinks(init) + RecipeLinks(last.product, last.ingredients)
  }

  /** Appending a recipe appends its links. */
  lemma CollectLinksAppend(init: seq<Recipe>, last: Recipe)
    ensures CollectLinks(init + [last]) == CollectLinks(init) + RecipeLinks(last.product, last.ingredients)
  {
    assert (init + [last])[..|init|] == init;
  }

  /** The consumer entries the links give node `x`, in link order. */
  function UsedInOf(links: seq<Link>, x: string): seq<Edge>
  {
    if links == [] then []
    else
      var l := links[|links| - 1];
      UsedInOf(links[..|links| - 1], x) + (if l.from == x then [Edge(l.to, l.cost)] else [])
  }

  /** The ingredient entries the links give node `x`, in link order. */
  function UsesOf(links: seq<Link>, x: string): seq<Edge>
  {
    if links == [] then []
    else
      var l := links[|links| - 1];
      UsesOf(links[..|links| - 1], x) + (if l.to == x then [Edge(l.from, l.cost)] else [])
  }

  /** The adjacency entries of a list of links split at any point: the entries
      of the first part followed by those of the second. */
  lemma {:induction false} AdjacencyAppend(a: seq<Link>, b: seq<Link>, x: string)
    ensures UsedInOf(a + b, x) == UsedInOf(a, x) + UsedInOf(b, x)
    ensures UsesOf(a + b, x) == UsesOf(a, x) + UsesOf(b, x)
    decreases |b|
  {
    if b == [] {
      assert a + b == a;
    } else {
      var init := b[..|b| - 1];
      var l := b[|b| - 1];
      assert (a + b)[..|a + b| - 1] == a + init;
      AdjacencyAppend(a, init, x);
      var usedIn := if l.from == x then [Edge(l.to, l.cost)] else [];
      var uses := if l.to == x then [Edge(l.from, l.cost)] else [];
      assert UsedInOf(a, x) + UsedInOf(init, x) + usedIn == UsedInOf(a, x) + (UsedInOf(init, x) + usedIn);
      assert UsesOf(a, x) + UsesOf(init, x) + uses == UsesOf(a, x) + (UsesOf(init, x) + uses);
    }
  }

  /** `x` has consumer entry `(y, c)` exactly when there is a link `(x, c, y)`,
      and ingredient entry `(y, c)` exactly when there is a link `(y, c, x)`. */
  lemma {:induction false} AdjacencyMembers(links: seq<Link>, x: string)
    ensures forall e :: e in UsedInOf(links, x) <==> Link(x, e.perBatch, e.node) in links
    ensures forall e :: e in UsesOf(links, x) <==> Link(e.node, e.perBatch, x) in links
  {
    if links != [] {
      var init := links[..|links| - 1];
      var l := links[|links| - 1];
      assert links == init + [l];
      AdjacencyMembers(init, x);
    }
  }

  /** Second pass, one link: append `(to, cost)` to `from`'s consumers and
      `(from, cost)` to `to`'s ingredients. Either endpoint missing from the
      dictionary is a failed lookup. */
  function AddLink(nodes: Graph, l: Link): (r: Result<Graph>)
    ensures r.Success? <==> l.from in nodes && l.to in nodes
    ensures r.Failure? ==> r.error.name !in nodes && (r.error.name == l.from || r.error.name == l.to)
    ensures r.Success? ==> r.value.Keys == nodes.Keys
  {
    if l.from !in nodes then Failure(UnknownReagent(l.from))
    else if l.to !in nodes then Failure(UnknownReagent(l.to))
    else
      var f := nodes[l.from];
      var withConsumer := nodes[l.from := f.(usedIn := f.usedIn + [Edge(l.to, l.cost)])];
      var t := withConsumer[l.to];
      Success(withConsumer[l.to := t.(uses := t.uses + [Edge(l.from, l.cost)])])
  }

  /** After one link every node keeps its name and batch size; `from` gains
      the consumer entry `(to, cost)`, `to` gains the ingredient entry
      `(from, cost)`, and every other node is unchanged. */
  lemma AddLinkEffect(nodes: Graph, l: Link, x: string)
    requires l.from in nodes && l.to in nodes && x in nodes
    ensures AddLink(nodes, l).value[x]
            == Node(nodes[x].name, nodes[x].batchSize,
                    nodes[x].uses + (if x == l.to then [Edge(l.from, l.cost)] else []),
                    nodes[x].usedIn + (if x == l.from then [Edge(l.to, l.cost)] else []))
  {
  }

  /** A link between two distinct declared nodes updates each of them once. */
  lemma AddLinkDistinct(nodes: Graph, l: Link)
    requires l.from in nodes && l.to in nodes && l.from != l.to
    ensures AddLink(nodes, l)
            == Success(nodes[l.from := nodes[l.from].(usedIn := nodes[l.from].usedIn + [Edge(l.to, l.cost)])]
                            [l.to := nodes[l.to].(uses := nodes[l.to].uses + [Edge(l.from, l.cost)])])
  {
  }

  /** Second pass over all links, stopping at the first failed lookup. */
  function AddLinks(nodes: Graph, links: seq<Link>): (r: Result<Graph>)
    ensures r.Success? ==> r.value.Keys == nodes.Keys
  {
    if links == [] then Success(nodes)
    else
      var r := AddLinks(nodes, links[..|links| - 1]);
      if r.Failure? then r else AddLink(r.value, links[|links| - 1])
  }

  /** The second pass succeeds exactly when every link joins two declared
      nodes; otherwise it reports an undeclared endpoint of some link. */
  lemma {:induction false} AddLinksOutcome(nodes: Graph, links: seq<Link>)
    ensures AddLinks(nodes, links).Success? <==> forall l :: l in links ==> l.from in nodes && l.to in nodes
    ensures AddLinks(nodes, links).Failure? ==>
              && AddLinks(nodes, links).error.name !in nodes
              && exists l :: l in links && (AddLinks(nodes, links).error.name == l.from || AddLinks(nodes, links).error.name == l.to)
  {
    if links != [] {
      var init := links[..|links| - 1];
      var l := links[|links| - 1];
      assert links == init + [l];
      AddLinksOutcome(nodes, init);
    }
  }

  /** After a successful second pass every node keeps its name and batch
      size, and its two lists have grown by exactly the entries its links give it. */
  lemma AddLinksAdjacency(nodes: Graph, links: seq<Link>, x: string)
    requires AddLinks(nodes, links).Success? && x in nodes
    ensures AddLinks(nodes, links).value[x].name == nodes[x].name
    ensures AddLinks(nodes, links).value[x].batchSize == nodes[x].batchSize
    ensures AddLinks(nodes, links).value[x].usedIn == nodes[x].usedIn + UsedInOf(links, x)
    ensures AddLinks(nodes, links).value[x].uses == nodes[x].uses + UsesOf(links, x)
  {
    AddLinksKeepsNode(nodes, links, x);
    AddLinksConsumers(nodes, links, x);
    AddLinksIngredients(nodes, links, x);
  }

  lemma {:induction false} AddLinksKeepsNode(nodes: Graph, links: seq<Link>, x: string)
    requires AddLinks(nodes, links).Success? && x in nodes
    ensures AddLinks(nodes, links).value[x].name == nodes[x].name
    ensures AddLinks(nodes, links).value[x].batchSize == nodes[x].batchSize
  {
    if links != [] {
      var init := links[..|links| - 1];
      var l := links[|links| - 1];
      assert links == init + [l];
      AddLinksKeepsNode(nodes, init, x);
      var g := AddLinks(nodes, init).value;
      assert AddLinks(nodes, links) == AddLink(g, l);
      AddLinkEffect(g, l, x);
    }
  }

  lemma {:induction false} AddLinksConsumers(nodes: Graph, links: seq<Link>, x: string)
    requires AddLinks(nodes, links).Success? && x in nodes
    ensures AddLinks(nodes, links).value[x].usedIn == nodes[x].usedIn + UsedInOf(links, x)
  {
    if links != [] {
      var init := links[..|links| - 1];
      var l := links[|links| - 1];
      assert links == init + [l];
      AddLinksConsumers(nodes, init, x);
      var g := AddLinks(nodes, init).value;
      assert AddLinks(nodes, links) == AddLink(g, l);
      AddLinkEffect(g, l, x);
      var added := if x == l.from then [Edge(l.to, l.cost)] else [];
      assert UsedInOf(links, x) == UsedInOf(init, x) + added;
      assert (nodes[x].usedIn + UsedInOf(init, x)) + added == nodes[x].usedIn + (UsedInOf(init, x) + added);
    }
  }

  lemma {:induction false} AddLinksIngredients(nodes: Graph, links: seq<Link>, x: string)
    requires AddLinks(nodes, links).Success? && x in nodes
    ensures AddLinks(nodes, links).value[x].uses == nodes[x].uses + UsesOf(links, x)
  {
    if links != [] {
      var init := links[..|links| - 1];
      var l := links[|links| - 1];
      assert links == init + [l];
      AddLinksIngredients(nodes, init, x);
      var g := AddLinks(nodes, init).value;
      assert AddLinks(nodes, links) == AddLink(g, l);
      AddLinkEffect(g, l, x);
      var added := if x == l.to then [Edge(l.from, l.cost)] else [];
      assert UsesOf(links, x) == UsesOf(init, x) + added;
      assert (nodes[x].uses + UsesOf(init, x)) + added == nodes[x].uses + (UsesOf(init, x) + added);
    }
  }

  /** Every ingredient is ORE or produced by some recipe. */
  predicate AllIngredientsDeclared(recipes: seq<Recipe>)
  {
    forall r, ing :: r in recipes && ing in r.ingredients ==> ing.name == Ore || ing.name in Products(recipes)
  }

  /** The graph built from a list of recipe records: it fails exactly when
      some ingredient is neither ORE nor any recipe's product, and then names
      such an ingredient. */
  function Build(recipes: seq<Recipe>): (r: Result<Graph>)
    ensures r.Success? <==> AllIngredientsDeclared(recipes)
    ensures r.Failure? ==>
              && r.error.name != Ore
              && r.error.name !in Products(recipes)
              && exists rc, ing :: rc in recipes && ing in rc.ingredients && ing.name == r.error.name
  {
    var links := CollectLinks(recipes);
    AddLinksOutcome(DeclareNodes(recipes), links);
    var r := AddLinks(DeclareNodes(recipes), links);
    if r.Failure? then
      var l :| l in links && (r.error.name == l.from || r.error.name == l.to);
      var rc :| rc in recipes && rc.product == l.to && Ingredient(l.from, l.cost) in rc.ingredients;
      assert r.error.name == l.from;
      r
    else
      r
  }

  /** A built graph has one node per declared reagent, named by its key, with
      the batch size of the last recipe for it (1 for ORE unless a recipe
      produces ORE), and adjacency lists holding exactly its links, in order. */
  lemma BuiltGraphShape(recipes: seq<Recipe>)
    requires Build(recipes).Success?
    ensures Build(recipes).value.Keys == {Ore} + Products(recipes)
    ensures forall x :: x in Build(recipes).value ==> Build(recipes).value[x].name == x
    ensures Ore !in Products(recipes) ==> Build(recipes).value[Ore].batchSize == 1
    ensures forall i :: 0 <= i < |recipes| && IsLastRecipeFor(recipes, i) ==>
              Build(recipes).value[recipes[i].product].batchSize == recipes[i].batchSize
    ensures forall x :: x in Build(recipes).value ==>
              && Build(recipes).value[x].usedIn == UsedInOf(CollectLinks(recipes), x)
              && Build(recipes).value[x].uses == UsesOf(CollectLinks(recipes), x)
  {
    var nodes := DeclareNodes(recipes);
    var links := CollectLinks(recipes);
    var g := Build(recipes).value;
    assert g == AddLinks(nodes, links).value;
    forall x | x in g
      ensures g[x].name == x
      ensures g[x].batchSize == nodes[x].batchSize
      ensures g[x].usedIn == UsedInOf(links, x) && g[x].uses == UsesOf(links, x)
    {
      AddLinksAdjacency(nodes, links, x);
    }
    DeclaredBatchSizes(recipes);
  }

  /** Each link lands once on each side: `(y, c)` occurs among `x`'s consumers
      exactly as often as `(x, c)` occurs among `y`'s ingredients, namely once
      per link `(x, c, y)`. */
  lemma {:induction false} AdjacencySymmetric(links: seq<Link>, x: string, y: string, c: int)
    ensures multiset(UsedInOf(links, x))[Edge(y, c)] == multiset(links)[Link(x, c, y)]
    ensures multiset(UsesOf(links, y))[Edge(x, c)] == multiset(links)[Link(x, c, y)]
  {
    if links != [] {
      var init := links[..|links| - 1];
      var l := links[|links| - 1];
      assert links == init + [l];
      AdjacencySymmetric(init, x, y, c);
      assert multiset(links) == multiset(init) + multiset{l};
      assert UsedInOf(links, x) == UsedInOf(init, x) + (if l.from == x then [Edge(l.to, l.cost)] else []);
      assert UsesOf(links, y) == UsesOf(init, y) + (if l.to == y then [Edge(l.from, l.cost)] else []);
    }
  }

  /** In a built graph the two adjacency lists mirror each other, and every
      entry names a node of the graph. */
  lemma BuiltAdjacencySymmetric(recipes: seq<Recipe>, x: string, y: string, c: int)
    requires Build(recipes).Success?
    requires x in Build(recipes).value && y in Build(recipes).value
    ensures multiset(Build(recipes).value[x].usedIn)[Edge(y, c)] == multiset(Build(recipes).value[y].uses)[Edge(x, c)]
    ensures Edge(y, c) in Build(recipes).value[x].usedIn <==> Edge(x, c) in Build(recipes).value[y].uses
    ensures forall e :: e in Build(recipes).value[x].usedIn ==> e.node in Build(recipes).value
    ensures forall e :: e in Build(recipes).value[x].uses ==> e.node in Build(recipes).value
  {
    BuiltGraphShape(recipes);
    var g := Build(recipes).value;
    var links := CollectLinks(recipes);
    AdjacencySymmetric(links, x, y, c);
    AdjacencyMembers(links, x);
    forall e | e in g[x].usedIn
      ensures e.node in g
    {
      assert Link(x, e.perBatch, e.node) in links;
    }
    forall e | e in g[x].uses
      ensures e.node in g
    {
      var l := Link(e.node, e.perBatch, x);
      assert l in links;
      var rc :| rc in recipes && rc.product == l.to && Ingredient(l.from, l.cost) in rc.ingredients;
    }
  }

  /** Every recipe's ingredients are linked to the node that survives for its
      product, including a recipe that a later one for the same product
      replaced: links are resolved by name after all nodes are declared. */
  lemma EveryRecipeLinksToSurvivor(recipes: seq<Recipe>, rc: Recipe, ing: Ingredient)
    requires Build(recipes).Success? && rc in recipes && ing in rc.ingredients
    ensures rc.product in Build(recipes).value && ing.name in Build(recipes).value
    ensures Edge(ing.name, ing.perBatch) in Build(recipes).value[rc.product].uses
    ensures Edge(rc.product, ing.perBatch) in Build(recipes).value[ing.name].usedIn
  {
    BuiltGraphShape(recipes);
    AdjacencyMembers(CollectLinks(recipes), rc.product);
    AdjacencyMembers(CollectLinks(recipes), ing.name);
    assert Link(ing.name, ing.perBatch, rc.product) in CollectLinks(recipes);
  }
}

=== FILE: scenarios.dfy ===
/**
 Concrete recipe lists: small end-to-end cases of construction, cost and
 search, and the inputs on which the search's answer misses the largest
 affordable amount of fuel.
 */
module Scenarios {
  import opened CsArith
  import opened RecipeGraph
  import opened CostResolver
  import opened YieldSearch

  /** The single recipe `k ORE => n FUEL`. */
  function Direct(k: int, n: int): seq<Recipe>
  {
    [Recipe("FUEL", n, [Ingredient("ORE", k)])]
  }

  function DirectGraph(k: int, n: int): Graph
  {
    map["ORE" := Node("ORE", 1, [], [Edge("FUEL", k)]),
        "FUEL" := Node("FUEL", n, [Edge("ORE", k)], [])]
  }

  const TwoLevels: Heights := map["ORE" := 1, "FUEL" := 0]

  lemma DirectDeclares(k: int, n: int)
    ensures DeclareNodes(Direct(k, n)) == map["ORE" := Node("ORE", 1, [], []), "FUEL" := Node("FUEL", n, [], [])]
  {
    var recipes := Direct(k, n);
    assert recipes[..0] == [];
    assert DeclareNodes(recipes[..0]) == map["ORE" := Node("ORE", 1, [], [])];
  }

  lemma DirectLinks(k: int, n: int)
    ensures CollectLinks(Direct(k, n)) == [Link("ORE", k, "FUEL")]
  {
    var r0 := Recipe("FUEL", n, [Ingredient("ORE", k)]);
    LinksOfOne("FUEL", Ingredient("ORE", k));
    CollectLinksAppend([], r0);
    assert [] + [r0] == Direct(k, n);
  }

  lemma DirectBuilds(k: int, n: int)
    ensures Build(Direct(k, n)) == Success(DirectGraph(k, n))
  {
    var recipes := Direct(k, n);
    DirectDeclares(k, n);
    DirectLinks(k, n);
    var nodes := DeclareNodes(recipes);
    var links := CollectLinks(recipes);
    assert links[..0] == [];
    assert AddLinks(nodes, links) == AddLink(nodes, links[0]);
    assert "ORE" != "FUEL";
    assert [] + [Edge("FUEL", k)] == [Edge("FUEL", k)];
    assert [] + [Edge("ORE", k)] == [Edge("ORE", k)];
    var withConsumer := nodes["ORE" := Node("ORE", 1, [], [Edge("FUEL", k)])];
    assert withConsumer["FUEL"] == Node("FUEL", n, [], []);
    assert AddLink(nodes, links[0]) == Success(withConsumer["FUEL" := Node("FUEL", n, [Edge("ORE", k)], [])]);
    assert withConsumer["FUEL" := Node("FUEL", n, [Edge("ORE", k)], [])] == DirectGraph(k, n);
    assert Build(recipes) == AddLinks(nodes, links);
  }

  /** `1 X => 1 FUEL` with no recipe for X: construction fails on X. */
  lemma UndeclaredIngredientFails()
    ensures Build([Recipe("FUEL", 1, [Ingredient("X", 1)])]) == Failure(UnknownReagent("X"))
  {
    var recipes := [Recipe("FUEL", 1, [Ingredient("X", 1)])];
    assert Products(recipes) == {"FUEL"};
    assert "X" != Ore && "X" != "FUEL";
    assert !AllIngredientsDeclared(recipes) by {
      assert recipes[0] in recipes && Ingredient("X", 1) in recipes[0].ingredients;
    }
  }

  /** `k ORE => n FUEL` costs `k * ceil(m / n)` ore for `m` fuel. */
  lemma DirectCost(k: int, n: int, m: int)
    requires k >= 0 && n > 0
    ensures Layered(DirectGraph(k, n), TwoLevels) && NonNegative(DirectGraph(k, n))
    ensures Cost(DirectGraph(k, n), TwoLevels, m) == k * CeilDiv(m, n)
  {
    var g := DirectGraph(k, n);
    assert "ORE" != "FUEL";
    assert g.Keys == {"ORE", "FUEL"};
    forall x, e | x in g && e in g[x].usedIn
      ensures e.node in g && TwoLevels[e.node] < TwoLevels[x] && e.perBatch >= 0
    {
      assert x == "ORE" && e == Edge("FUEL", k);
    }
    OneLevelChain(g, TwoLevels, "ORE", "FUEL", k, "FUEL", m);
  }

  /** Finding: with `1 ORE => 1 FUEL` and 10 ore, ten fuel are affordable,
      yet the search stops on a trial costing exactly the budget and answers nine. */
  lemma ExactBudgetMissed()
    ensures Searchable(DirectGraph(1, 1), TwoLevels, 10, 11)
    ensures AmountOfFuelFromOre(DirectGraph(1, 1), TwoLevels, 10, 11) == 9
    ensures Cost(DirectGraph(1, 1), TwoLevels, 10) <= 10
  {
    var g := DirectGraph(1, 1);
    var h := TwoLevels;
    forall m | m in {1, 2, 4, 8, 9, 10, 11}
      ensures Cost(g, h, m) == m
    {
      DirectCost(1, 1, m);
    }
    DirectCost(1, 1, 0);
    ExactBudgetTrace(g, h);
  }

  /** The search on any graph where `m` fuel cost `m` ore, with 10 ore:
      doubling stops at 8, the converge phase steps by one to 10, whose cost
      reaches the budget, and the answer is 9. */
  lemma ExactBudgetTrace(g: Graph, h: Heights)
    requires Layered(g, h) && NonNegative(g) && Ore in g
    requires Cost(g, h, 1) == 1 && Cost(g, h, 2) == 2 && Cost(g, h, 4) == 4 && Cost(g, h, 8) == 8
    requires Cost(g, h, 9) == 9 && Cost(g, h, 10) == 10 && Cost(g, h, 11) == 11
    ensures Searchable(g, h, 10, 11)
    ensures AmountOfFuelFromOre(g, h, 10, 11) == 9
  {
    assert TruncDiv(10, 2) == 5;
    BracketDoubles(g, h, 10, 11, 1);
    BracketDoubles(g, h, 10, 11, 2);
    BracketDoubles(g, h, 10, 11, 4);
    assert Bracket(g, h, 10, 11, 8) == 8;
    assert Step(10, 8, 8) == 1;
    assert Step(10, 9, 9) == 1;
    ConvergeSteps(g, h, 10, 11, 8, 8);
    ConvergeSteps(g, h, 10, 11, 9, 9);
    assert Converge(g, h, 10, 11, 10) == 10;
  }

  lemma UnitCost(m: int)
    ensures Cost(DirectGraph(1, 1), TwoLevels, m) == m
  {
    DirectCost(1, 1, m);
  }

  /** Finding: with `10 ORE => 10 FUEL` and 25 ore, twenty fuel are affordable;
      a converge step of three jumps from 19 to 22 and the search answers 21,
      which costs 30 ore. */
  lemma OvershootPastBudget()
    ensures Searchable(DirectGraph(10, 10), TwoLevels, 25, 21)
    ensures AmountOfFuelFromOre(DirectGraph(10, 10), TwoLevels, 25, 21) == 21
    ensures Cost(DirectGraph(10, 10), TwoLevels, 21) == 30
    ensures Cost(DirectGraph(10, 10), TwoLevels, 20) <= 25
  {
    var g := DirectGraph(10, 10);
    var h := TwoLevels;
    DirectCost(10, 10, 0);
    TenCostBatches(1, 1);
    TenCostBatches(2, 1);
    TenCostBatches(4, 1);
    TenCostBatches(8, 1);
    TenCostBatches(16, 2);
    TenCostBatches(19, 2);
    TenCostBatches(20, 2);
    TenCostBatches(21, 3);
    TenCostBatches(22, 3);
    OvershootTrace(g, h);
  }

  /** `10 ORE => 10 FUEL` charges ten ore per started batch of ten fuel. */
  lemma TenCostBatches(m: int, b: int)
    requires 10 * b - 9 <= m <= 10 * b
    ensures Cost(DirectGraph(10, 10), TwoLevels, m) == 10 * b
  {
    DirectCost(10, 10, m);
    assert CeilDiv(m, 10) == b;
  }

  /** The search on any graph that charges ten ore per started ten fuel, with
      25 ore: doubling stops at 16, then two converge steps of three reach 22,
      and the answer is 21. */
  lemma OvershootTrace(g: Graph, h: Heights)
    requires Layered(g, h) && NonNegative(g) && Ore in g
    requires Cost(g, h, 1) == 10 && Cost(g, h, 2) == 10 && Cost(g, h, 4) == 10 && Cost(g, h, 8) == 10
    requires Cost(g, h, 16) == 20 && Cost(g, h, 19) == 20 && Cost(g, h, 21) == 30 && Cost(g, h, 22) == 30
    ensures Searchable(g, h, 25, 21)
    ensures AmountOfFuelFromOre(g, h, 25, 21) == 21
  {
    assert TruncDiv(25, 2) == 12;
    BracketDoubles(g, h, 25, 21, 1);
    BracketDoubles(g, h, 25, 21, 2);
    BracketDoubles(g, h, 25, 21, 4);
    BracketDoubles(g, h, 25, 21, 8);
    assert Bracket(g, h, 25, 21, 16) == 16;
    assert Step(25, 20, 16) == 3;
    assert Step(25, 20, 19) == 3;
    ConvergeSteps(g, h, 25, 21, 16, 20);
    ConvergeSteps(g, h, 25, 21, 19, 20);
    assert Converge(g, h, 25, 21, 22) == 22;
  }

  /** The corrected search answers ten on the exact-budget input. */
  lemma ExactBudgetCorrected(r: int)
    requires LargestAffordable(DirectGraph(1, 1), TwoLevels, 10, r)
    ensures r == 10
  {
    UnitCost(r);
    UnitCost(r + 1);
  }

  /** The corrected search answers twenty on the overshoot input. */
  lemma OvershootCorrected(r: int)
    requires LargestAffordable(DirectGraph(10, 10), TwoLevels, 25, r)
    ensures r == 20
  {
    DirectCost(10, 10, r);
    DirectCost(10, 10, r + 1);
    if r < 20 {
      RequirementMonotone(DirectGraph(10, 10), TwoLevels, Ore, Fuel, r + 1, 20);
      DirectCost(10, 10, 20);
    } else if r > 20 {
      RequirementMonotone(DirectGraph(10, 10), TwoLevels, Ore, Fuel, 21, r);
      DirectCost(10, 10, 21);
    }
  }

  /** The two recipes `k ORE => n A` and `1 A => 1 FUEL`. */
  function Chain(k: int, n: int): seq<Recipe>
  {
    [Recipe("A", n, [Ingredient("ORE", k)]), Recipe("FUEL", 1, [Ingredient("A", 1)])]
  }

  function ChainGraph(k: int, n: int): Graph
  {
    map["ORE" := Node("ORE", 1, [], [Edge("A", k)]),
        "A" := Node("A", n, [Edge("ORE", k)], [Edge("FUEL", 1)]),
        "FUEL" := Node("FUEL", 1, [Edge("A", 1)], [])]
  }

  const ThreeLevels: Heights := map["ORE" := 2, "A" := 1, "FUEL" := 0]

  lemma ChainDeclares(k: int, n: int)
    ensures DeclareNodes(Chain(k, n))
            == map["ORE" := Node("ORE", 1, [], []), "A" := Node("A", n, [], []), "FUEL" := Node("FUEL", 1, [], [])]
  {
    var recipes := Chain(k, n);
    assert recipes[..1] == [recipes[0]] && [recipes[0]][..0] == [];
    assert DeclareNodes([recipes[0]]) == map["ORE" := Node("ORE", 1, [], [])]["A" := Node("A", n, [], [])];
  }

  /** Two recipes contribute their links recipe by recipe. */
  lemma CollectTwo(rs: seq<Recipe>)
    requires |rs| == 2
    ensures CollectLinks(rs) == RecipeLinks(rs[0].product, rs[0].ingredients) + RecipeLinks(rs[1].product, rs[1].ingredients)
  {
    CollectFirst2(rs);
    assert rs[..2] == rs;
  }

  lemma ChainLinks(k: int, n: int)
    ensures CollectLinks(Chain(k, n)) == [Link("ORE", k, "A"), Link("A", 1, "FUEL")]
  {
    CollectTwo(Chain(k, n));
  }

  lemma ChainFirstLink(k: int, n: int)
    ensures AddLink(DeclareNodes(Chain(k, n)), Link("ORE", k, "A"))
            == Success(map["ORE" := Node("ORE", 1, [], [Edge("A", k)]),
                           "A" := Node("A", n, [Edge("ORE", k)], []),
                           "FUEL" := Node("FUEL", 1, [], [])])
  {
    ChainDeclares(k, n);
    var nodes := DeclareNodes(Chain(k, n));
    assert "ORE" != "A" && "ORE" != "FUEL" && "A" != "FUEL";
    AddLinkDistinct(nodes, Link("ORE", k, "A"));
    FirstLinkResult(k, n);
  }

  lemma FirstLinkResult(k: int, n: int)
    ensures var nodes := map["ORE" := Node("ORE", 1, [], []), "A" := Node("A", n, [], []), "FUEL" := Node("FUEL", 1, [], [])];
            nodes["ORE" := nodes["ORE"].(usedIn := nodes["ORE"].usedIn + [Edge("A", k)])]
                 ["A" := nodes["A"].(uses := nodes["A"].uses + [Edge("ORE", k)])]
            == map["ORE" := Node("ORE", 1, [], [Edge("A", k)]),
                   "A" := Node("A", n, [Edge("ORE", k)], []),
                   "FUEL" := Node("FUEL", 1, [], [])]
  {
    assert "ORE" != "A" && "ORE" != "FUEL" && "A" != "FUEL";
    assert [] + [Edge("A", k)] == [Edge("A", k)];
    assert [] + [Edge("ORE", k)] == [Edge("ORE", k)];
  }

  lemma ChainSecondLink(k: int, n: int)
    ensures AddLink(map["ORE" := Node("ORE", 1, [], [Edge("A", k)]),
                        "A" := Node("A", n, [Edge("ORE", k)], []),
                        "FUEL" := Node("FUEL", 1, [], [])], Link("A", 1, "FUEL"))
            == Success(ChainGraph(k, n))
  {
    var afterFirst := map["ORE" := Node("ORE", 1, [], [Edge("A", k)]),
                          "A" := Node("A", n, [Edge("ORE", k)], []),
                          "FUEL" := Node("FUEL", 1, [], [])];
    assert "ORE" != "A" && "ORE" != "FUEL" && "A" != "FUEL";
    AddLinkDistinct(afterFirst, Link("A", 1, "FUEL"));
    SecondLinkResult(k, n);
  }

  lemma SecondLinkResult(k: int, n: int)
    ensures var nodes := map["ORE" := Node("ORE", 1, [], [Edge("A", k)]),
                             "A" := Node("A", n, [Edge("ORE", k)], []),
                             "FUEL" := Node("FUEL", 1, [], [])];
            nodes["A" := nodes["A"].(usedIn := nodes["A"].usedIn + [Edge("FUEL", 1)])]
                 ["FUEL" := nodes["FUEL"].(uses := nodes["FUEL"].uses + [Edge("A", 1)])]
            == ChainGraph(k, n)
  {
    assert "ORE" != "A" && "ORE" != "FUEL" && "A" != "FUEL";
    assert [] + [Edge("FUEL", 1)] == [Edge("FUEL", 1)];
    assert [] + [Edge("A", 1)] == [Edge("A", 1)];
  }

  lemma ChainBuilds(k: int, n: int)
    ensures Build(Chain(k, n)) == Success(ChainGraph(k, n))
  {
    ChainLinks(k, n);
    ChainFirstLink(k, n);
    ChainSecondLink(k, n);
    var nodes := DeclareNodes(Chain(k, n));
    var l0 := Link("ORE", k, "A");
    var l1 := Link("A", 1, "FUEL");
    assert [l0, l1][..1] == [l0] && [l0][..0] == [];
    assert AddLinks(nodes, [l0]) == AddLink(nodes, l0);
    assert AddLinks(nodes, [l0, l1]) == AddLink(AddLinks(nodes, [l0]).value, l1);
  }

  lemma ChainLayered(k: int, n: int)
    requires k >= 0 && n > 0
    ensures Layered(ChainGraph(k, n), ThreeLevels) && NonNegative(ChainGraph(k, n))
  {
    var g := ChainGraph(k, n);
    assert "ORE" != "A" && "ORE" != "FUEL" && "A" != "FUEL";
    assert g.Keys == {"ORE", "A", "FUEL"};
    forall x, e | x in g && e in g[x].usedIn
      ensures e.node in g && ThreeLevels[e.node] < ThreeLevels[x] && e.perBatch >= 0
    {
      assert (x == "ORE" && e == Edge("A", k)) || (x == "A" && e == Edge("FUEL", 1));
    }
  }

  /** `k ORE => n A; 1 A => 1 FUEL` costs `k * ceil(m / n)` ore for `m` fuel. */
  lemma ChainCost(k: int, n: int, m: int)
    requires k >= 0 && n > 0
    ensures Layered(ChainGraph(k, n), ThreeLevels) && NonNegative(ChainGraph(k, n))
    ensures Cost(ChainGraph(k, n), ThreeLevels, m) == k * CeilDiv(m, n)
  {
    ChainLayered(k, n);
    var g := ChainGraph(k, n);
    var h := ThreeLevels;
    assert "ORE" != "A" && "A" != "FUEL";
    OneLevelChain(g, h, "A", "FUEL", 1, "FUEL", m);
    assert CeilDiv(m, 1) == m;
    SingleConsumer(g, h, "ORE", "A", k, "FUEL", m);
    BatchesIsCeilDiv(m, n);
  }

  /** Minimal chain `1 ORE => 1 A; 1 A => 1 FUEL`: one fuel takes one ore. */
  lemma MinimalChainScenario()
    ensures Layered(ChainGraph(1, 1), ThreeLevels)
    ensures TotalOreUsedInOneFuel(ChainGraph(1, 1), ThreeLevels) == 1
  {
    ChainCost(1, 1, 1);
  }

  /** Batch rounding `10 ORE => 10 A; 1 A => 1 FUEL`: one fuel takes a full
      batch of ten A, so ten ore. */
  lemma BatchRoundingScenario()
    ensures Layered(ChainGraph(10, 10), ThreeLevels)
    ensures TotalOreUsedInOneFuel(ChainGraph(10, 10), ThreeLevels) == 10
  {
    ChainCost(10, 10, 1);
  }

  /** The graph of the published 31-ore example:
      `10 ORE => 10 A`, `1 ORE => 1 B`, `7 A, 1 B => 1 C`, `7 A, 1 C => 1 D`,
      `7 A, 1 D => 1 E`, `7 A, 1 E => 1 FUEL`, adjacency in link order.
      It is what `Build` makes of those recipes (`PublishedBuilds`). */
  const Published: Graph := map[
    "ORE" := Node("ORE", 1, [], [Edge("A", 10), Edge("B", 1)]),
    "A" := Node("A", 10, [Edge("ORE", 10)], [Edge("C", 7), Edge("D", 7), Edge("E", 7), Edge("FUEL", 7)]),
    "B" := Node("B", 1, [Edge("ORE", 1)], [Edge("C", 1)]),
    "C" := Node("C", 1, [Edge("A", 7), Edge("B", 1)], [Edge("D", 1)]),
    "D" := Node("D", 1, [Edge("A", 7), Edge("C", 1)], [Edge("E", 1)]),
    "E" := Node("E", 1, [Edge("A", 7), Edge("D", 1)], [Edge("FUEL", 1)]),
    "FUEL" := Node("FUEL", 1, [Edge("A", 7), Edge("E", 1)], [])]

  const PublishedHeights: Heights := map["ORE" := 5, "A" := 4, "B" := 4, "C" := 3, "D" := 2, "E" := 1, "FUEL" := 0]

  /** The published example's nodes, as facts about an arbitrary graph, so that
      the cost proof below reasons about their shape rather than evaluating
      the literal map. */
  predicate PublishedShape(g: Graph)
  {
    && g.Keys == {"ORE", "A", "B", "C", "D", "E", "FUEL"}
    && g["ORE"] == Node("ORE", 1, [], [Edge("A", 10), Edge("B", 1)])
    && g["A"] == Node("A", 10, [Edge("ORE", 10)], [Edge("C", 7), Edge("D", 7), Edge("E", 7), Edge("FUEL", 7)])
    && g["B"] == Node("B", 1, [Edge("ORE", 1)], [Edge("C", 1)])
    && g["C"] == Node("C", 1, [Edge("A", 7), Edge("B", 1)], [Edge("D", 1)])
    && g["D"] == Node("D", 1, [Edge("A", 7), Edge("C", 1)], [Edge("E", 1)])
    && g["E"] == Node("E", 1, [Edge("A", 7), Edge("D", 1)], [Edge("FUEL", 1)])
    && g["FUEL"] == Node("FUEL", 1, [Edge("A", 7), Edge("E", 1)], [])
  }

  predicate PublishedLevels(h: Heights)
  {
    && h.Keys == {"ORE", "A", "B", "C", "D", "E", "FUEL"}
    && h["ORE"] == 5 && h["A"] == 4 && h["B"] == 4 && h["C"] == 3
    && h["D"] == 2 && h["E"] == 1 && h["FUEL"] == 0
  }

  lemma PublishedIsShaped()
    ensures PublishedShape(Published) && PublishedLevels(PublishedHeights)
  {
  }

  /*
   The rest of this section proves that building the published recipes yields
   the `Published` graph. Stated in one piece the proof exceeds the solver's
   budget, so it is split:
   - the recipes and reagent names are kept abstract (`IsExampleList`,
     `Distinct7`) and the literal names are substituted only at the end;
   - the links are collected one recipe at a time (`CollectFirst1` to
     `CollectFirst6`), each lemma seeing a single extension;
   - each node's adjacency lists are computed by a lemma of their own
     (`ExampleOreLists` to `ExampleFuelLists`);
   - the facts about construction are gathered once (`BuildsLikeExample`)
     and read off in two halves (`ExampleBuiltUpper`, `ExampleBuiltLower`).
   */

  /** The six recipes of the published example over seven reagent names, in
      the order given: `10 o => 10 a`, `1 o => 1 b`, `7 a, 1 b => 1 c`,
      `7 a, 1 c => 1 d`, `7 a, 1 d => 1 e`, `7 a, 1 e => 1 f`. */
  function ExampleRecipes(o: string, a: string, b: string, c: string, d: string, e: string, f: string): seq<Recipe>
  {
    [Recipe(a, 10, [Ingredient(o, 10)]),
     Recipe(b, 1, [Ingredient(o, 1)]),
     Recipe(c, 1, [Ingredient(a, 7), Ingredient(b, 1)]),
     Recipe(d, 1, [Ingredient(a, 7), Ingredient(c, 1)]),
     Recipe(e, 1, [Ingredient(a, 7), Ingredient(d, 1)]),
     Recipe(f, 1, [Ingredient(a, 7), Ingredient(e, 1)])]
  }

  /** The published example's recipe records. */
  const PublishedRecipes: seq<Recipe> := ExampleRecipes("ORE", "A", "B", "C", "D", "E", "FUEL")

  /** `rs` is the published example's recipe list, stated element by element
      so that proofs about it do not evaluate the list display. */
  predicate IsExampleList(rs: seq<Recipe>, o: string, a: string, b: string, c: string, d: string, e: string, f: string)
  {
    && |rs| == 6
    && rs[0] == Recipe(a, 10, [Ingredient(o, 10)])
    && rs[1] == Recipe(b, 1, [Ingredient(o, 1)])
    && rs[2] == Recipe(c, 1, [Ingredient(a, 7), Ingredient(b, 1)])
    && rs[3] == Recipe(d, 1, [Ingredient(a, 7), Ingredient(c, 1)])
    && rs[4] == Recipe(e, 1, [Ingredient(a, 7), Ingredient(d, 1)])
    && rs[5] == Recipe(f, 1, [Ingredient(a, 7), Ingredient(e, 1)])
  }

  lemma ExampleListIs(o: string, a: string, b: string, c: string, d: string, e: string, f: string)
    ensures IsExampleList(ExampleRecipes(o, a, b, c, d, e, f), o, a, b, c, d, e, f)
  {
  }

  /** The links of one recipe with one or two ingredients. */
  lemma LinksOfOne(p: string, i: Ingredient)
    ensures RecipeLinks(p, [i]) == [Link(i.name, i.perBatch, p)]
  {
  }

  lemma LinksOfTwo(p: string, i: Ingredient, j: Ingredient)
    ensures RecipeLinks(p, [i, j]) == [Link(i.name, i.perBatch, p), Link(j.name, j.perBatch, p)]
  {
  }

  /** Extending a prefix of the recipe list by one recipe appends its links. */
  lemma CollectPrefix(rs: seq<Recipe>, k: nat)
    requires k < |rs|
    ensures CollectLinks(rs[..k + 1]) == CollectLinks(rs[..k]) + RecipeLinks(rs[k].product, rs[k].ingredients)
  {
    assert rs[..k] + [rs[k]] == rs[..k + 1];
    CollectLinksAppend(rs[..k], rs[k]);
  }

  /** The first `k` of six recipes contribute their links recipe by recipe,
      one lemma per `k` so that each proof sees a single extension. */
  lemma CollectFirst1(rs: seq<Recipe>)
    requires |rs| >= 1
    ensures CollectLinks(rs[..1]) == RecipeLinks(rs[0].product, rs[0].ingredients)
  {
    CollectPrefix(rs, 0);
    assert rs[..0] == [];
  }

  lemma CollectFirst2(rs: seq<Recipe>)
    requires |rs| >= 2
    ensures CollectLinks(rs[..2]) == RecipeLinks(rs[0].product, rs[0].ingredients) + RecipeLinks(rs[1].product, rs[1].ingredients)
  {
    CollectFirst1(rs);
    CollectPrefix(rs, 1);
  }

  lemma CollectFirst3(rs: seq<Recipe>)
    requires |rs| >= 3
    ensures CollectLinks(rs[..3]) == RecipeLinks(rs[0].product, rs[0].ingredients) + RecipeLinks(rs[1].product, rs[1].ingredients) + RecipeLinks(rs[2].product, rs[2].ingredients)
  {
    CollectFirst2(rs);
    CollectPrefix(rs, 2);
  }

  lemma CollectFirst4(rs: seq<Recipe>)
    requires |rs| >= 4
    ensures CollectLinks(rs[..4]) == RecipeLinks(rs[0].product, rs[0].ingredients) + RecipeLinks(rs[1].product, rs[1].ingredients) + RecipeLinks(rs[2].product, rs[2].ingredients) + RecipeLinks(rs[3].product, rs[3].ingredients)
  {
    CollectFirst3(rs);
    CollectPrefix(rs, 3);
  }

  lemma CollectFirst5(rs: seq<Recipe>)
    requires |rs| >= 5
    ensures CollectLinks(rs[..5]) == RecipeLinks(rs[0].product, rs[0].ingredients) + RecipeLinks(rs[1].product, rs[1].ingredients) + RecipeLinks(rs[2].product, rs[2].ingredients) + RecipeLinks(rs[3].product, rs[3].ingredients) + RecipeLinks(rs[4].product, rs[4].ingredients)
  {
    CollectFirst4(rs);
    CollectPrefix(rs, 4);
  }

  lemma CollectFirst6(rs: seq<Recipe>)
    requires |rs| >= 6
    ensures CollectLinks(rs[..6]) == RecipeLinks(rs[0].product, rs[0].ingredients) + RecipeLinks(rs[1].product, rs[1].ingredients) + RecipeLinks(rs[2].product, rs[2].ingredients) + RecipeLinks(rs[3].product, rs[3].ingredients) + RecipeLinks(rs[4].product, rs[4].ingredients) + RecipeLinks(rs[5].product, rs[5].ingredients)
  {
    CollectFirst5(rs);
    CollectPrefix(rs, 5);
  }

  /** Six recipes contribute their links recipe by recipe. */
  lemma CollectSix(rs: seq<Recipe>)
    requires |rs| == 6
    ensures CollectLinks(rs)
            == RecipeLinks(rs[0].product, rs[0].ingredients) + RecipeLinks(rs[1].product, rs[1].ingredients)
             + RecipeLinks(rs[2].product, rs[2].ingredients) + RecipeLinks(rs[3].product, rs[3].ingredients)
             + RecipeLinks(rs[4].product, rs[4].ingredients) + RecipeLinks(rs[5].product, rs[5].ingredients)
  {
    CollectFirst6(rs);
    assert rs[..6] == rs;
  }

  /** Collecting the published example's recipes yields its links, recipe by recipe. */
  lemma ExampleLinksCollected(rs: seq<Recipe>, o: string, a: string, b: string, c: string, d: string, e: string, f: string)
    requires IsExampleList(rs, o, a, b, c, d, e, f)
    ensures CollectLinks(rs) == ExampleLinks(o, a, b, c, d, e, f)
  {
    CollectSix(rs);
    LinksOfOne(a, Ingredient(o, 10));
    LinksOfOne(b, Ingredient(o, 1));
    LinksOfTwo(c, Ingredient(a, 7), Ingredient(b, 1));
    LinksOfTwo(d, Ingredient(a, 7), Ingredient(c, 1));
    LinksOfTwo(e, Ingredient(a, 7), Ingredient(d, 1));
    LinksOfTwo(f, Ingredient(a, 7), Ingredient(e, 1));
  }

  /** The adjacency entries of a single link. */
  lemma AdjacencyOfOne(l: Link, x: string)
    ensures UsedInOf([l], x) == if l.from == x then [Edge(l.to, l.cost)] else []
    ensures UsesOf([l], x) == if l.to == x then [Edge(l.from, l.cost)] else []
  {
    assert [l][..0] == [];
  }

  /** The adjacency entries of two links, one after the other. */
  lemma AdjacencyOfTwo(l1: Link, l2: Link, x: string)
    ensures UsedInOf([l1, l2], x)
            == (if l1.from == x then [Edge(l1.to, l1.cost)] else []) + (if l2.from == x then [Edge(l2.to, l2.cost)] else [])
    ensures UsesOf([l1, l2], x)
            == (if l1.to == x then [Edge(l1.from, l1.cost)] else []) + (if l2.to == x then [Edge(l2.from, l2.cost)] else [])
  {
    AdjacencyAppend([l1], [l2], x);
    AdjacencyOfOne(l1, x);
    AdjacencyOfOne(l2, x);
    assert [l1] + [l2] == [l1, l2];
  }

  /** The adjacency entries of six consecutive parts of a link list. */
  lemma AdjacencyOfSix(c0: seq<Link>, c1: seq<Link>, c2: seq<Link>, c3: seq<Link>, c4: seq<Link>, c5: seq<Link>, x: string)
    ensures UsedInOf(c0 + c1 + c2 + c3 + c4 + c5, x)
            == UsedInOf(c0, x) + UsedInOf(c1, x) + UsedInOf(c2, x) + UsedInOf(c3, x) + UsedInOf(c4, x) + UsedInOf(c5, x)
    ensures UsesOf(c0 + c1 + c2 + c3 + c4 + c5, x)
            == UsesOf(c0, x) + UsesOf(c1, x) + UsesOf(c2, x) + UsesOf(c3, x) + UsesOf(c4, x) + UsesOf(c5, x)
  {
    AdjacencyAppend(c0, c1, x);
    AdjacencyAppend(c0 + c1, c2, x);
    AdjacencyAppend(c0 + c1 + c2, c3, x);
    AdjacencyAppend(c0 + c1 + c2 + c3, c4, x);
    AdjacencyAppend(c0 + c1 + c2 + c3 + c4, c5, x);
  }

  /** The links of the published example over seven reagent names, one part
      per recipe. */
  function ExampleLinks(o: string, a: string, b: string, c: string, d: string, e: string, f: string): seq<Link>
  {
    [Link(o, 10, a)] + [Link(o, 1, b)] + [Link(a, 7, c), Link(b, 1, c)] + [Link(a, 7, d), Link(c, 1, d)]
    + [Link(a, 7, e), Link(d, 1, e)] + [Link(a, 7, f), Link(e, 1, f)]
  }

  /** Seven pairwise different names. */
  predicate Distinct7(o: string, a: string, b: string, c: string, d: string, e: string, f: string)
  {
    && o != a && o != b && o != c && o != d && o != e && o != f
    && a != b && a != c && a != d && a != e && a != f
    && b != c && b != d && b != e && b != f
    && c != d && c != e && c != f
    && d != e && d != f
    && e != f
  }

  lemma ExampleOreLists(o: string, a: string, b: string, c: string, d: string, e: string, f: string)
    requires Distinct7(o, a, b, c, d, e, f)
    ensures UsedInOf(ExampleLinks(o, a, b, c, d, e, f), o) == [Edge(a, 10), Edge(b, 1)]
    ensures UsesOf(ExampleLinks(o, a, b, c, d, e, f), o) == []
  {
    AdjacencyOfSix([Link(o, 10, a)], [Link(o, 1, b)], [Link(a, 7, c), Link(b, 1, c)], [Link(a, 7, d), Link(c, 1, d)], [Link(a, 7, e), Link(d, 1, e)], [Link(a, 7, f), Link(e, 1, f)], o);
    AdjacencyOfOne(Link(o, 10, a), o);
    AdjacencyOfOne(Link(o, 1, b), o);
    AdjacencyOfTwo(Link(a, 7, c), Link(b, 1, c), o);
    AdjacencyOfTwo(Link(a, 7, d), Link(c, 1, d), o);
    AdjacencyOfTwo(Link(a, 7, e), Link(d, 1, e), o);
    AdjacencyOfTwo(Link(a, 7, f), Link(e, 1, f), o);
  }

  lemma ExampleALists(o: string, a: string, b: string, c: string, d: string, e: string, f: string)
    requires Distinct7(o, a, b, c, d, e, f)
    ensures UsedInOf(ExampleLinks(o, a, b, c, d, e, f), a) == [Edge(c, 7), Edge(d, 7), Edge(e, 7), Edge(f, 7)]
    ensures UsesOf(ExampleLinks(o, a, b, c, d, e, f), a) == [Edge(o, 10)]
  {
    AdjacencyOfSix([Link(o, 10, a)], [Link(o, 1, b)], [Link(a, 7, c), Link(b, 1, c)], [Link(a, 7, d), Link(c, 1, d)], [Link(a, 7, e), Link(d, 1, e)], [Link(a, 7, f), Link(e, 1, f)], a);
    AdjacencyOfOne(Link(o, 10, a), a);
    AdjacencyOfOne(Link(o, 1, b), a);
    AdjacencyOfTwo(Link(a, 7, c), Link(b, 1, c), a);
    AdjacencyOfTwo(Link(a, 7, d), Link(c, 1, d), a);
    AdjacencyOfTwo(Link(a, 7, e), Link(d, 1, e), a);
    AdjacencyOfTwo(Link(a, 7, f), Link(e, 1, f), a);
  }

  lemma ExampleBLists(o: string, a: string, b: string, c: string, d: string, e: string, f: string)
    requires Distinct7(o, a, b, c, d, e, f)
    ensures UsedInOf(ExampleLinks(o, a, b, c, d, e, f), b) == [Edge(c, 1)]
    ensures UsesOf(ExampleLinks(o, a, b, c, d, e, f), b) == [Edge(o, 1)]
  {
    AdjacencyOfSix([Link(o, 10, a)], [Link(o, 1, b)], [Link(a, 7, c), Link(b, 1, c)], [Link(a, 7, d), Link(c, 1, d)], [Link(a, 7, e), Link(d, 1, e)], [Link(a, 7, f), Link(e, 1, f)], b);
    AdjacencyOfOne(Link(o, 10, a), b);
    AdjacencyOfOne(Link(o, 1, b), b);
    AdjacencyOfTwo(Link(a, 7, c), Link(b, 1, c), b);
    AdjacencyOfTwo(Link(a, 7, d), Link(c, 1, d), b);
    AdjacencyOfTwo(Link(a, 7, e), Link(d, 1, e), b);
    AdjacencyOfTwo(Link(a, 7, f), Link(e, 1, f), b);
  }

  lemma ExampleCLists(o: string, a: string, b: string, c: string, d: string, e: string, f: string)
    requires Distinct7(o, a, b, c, d, e, f)
    ensures UsedInOf(ExampleLinks(o, a, b, c, d, e, f), c) == [Edge(d, 1)]
    ensures UsesOf(ExampleLinks(o, a, b, c, d, e, f), c) == [Edge(a, 7), Edge(b, 1)]
  {
    AdjacencyOfSix([Link(o, 10, a)], [Link(o, 1, b)], [Link(a, 7, c), Link(b, 1, c)], [Link(a, 7, d), Link(c, 1, d)], [Link(a, 7, e), Link(d, 1, e)], [Link(a, 7, f), Link(e, 1, f)], c);
    AdjacencyOfOne(Link(o, 10, a), c);
    AdjacencyOfOne(Link(o, 1, b), c);
    AdjacencyOfTwo(Link(a, 7, c), Link(b, 1, c), c);
    AdjacencyOfTwo(Link(a, 7, d), Link(c, 1, d), c);
    AdjacencyOfTwo(Link(a, 7, e), Link(d, 1, e), c);
    AdjacencyOfTwo(Link(a, 7, f), Link(e, 1, f), c);
  }

  lemma ExampleDLists(o: string, a: string, b: string, c: string, d: string, e: string, f: string)
    requires Distinct7(o, a, b, c, d, e, f)
    ensures UsedInOf(ExampleLinks(o, a, b, c, d, e, f), d) == [Edge(e, 1)]
    ensures UsesOf(ExampleLinks(o, a, b, c, d, e, f), d) == [Edge(a, 7), Edge(c, 1)]
  {
    AdjacencyOfSix([Link(o, 10, a)], [Link(o, 1, b)], [Link(a, 7, c), Link(b, 1, c)], [Link(a, 7, d), Link(c, 1, d)], [Link(a, 7, e), Link(d, 1, e)], [Link(a, 7, f), Link(e, 1, f)], d);
    AdjacencyOfOne(Link(o, 10, a), d);
    AdjacencyOfOne(Link(o, 1, b), d);
    AdjacencyOfTwo(Link(a, 7, c), Link(b, 1, c), d);
    AdjacencyOfTwo(Link(a, 7, d), Link(c, 1, d), d);
    AdjacencyOfTwo(Link(a, 7, e), Link(d, 1, e), d);
    AdjacencyOfTwo(Link(a, 7, f), Link(e, 1, f), d);
  }

  lemma ExampleELists(o: string, a: string, b: string, c: string, d: string, e: string, f: string)
    requires Distinct7(o, a, b, c, d, e, f)
    ensures UsedInOf(ExampleLinks(o, a, b, c, d, e, f), e) == [Edge(f, 1)]
    ensures UsesOf(ExampleLinks(o, a, b, c, d, e, f), e) == [Edge(a, 7), Edge(d, 1)]
  {
    AdjacencyOfSix([Link(o, 10, a)], [Link(o, 1, b)], [Link(a, 7, c), Link(b, 1, c)], [Link(a, 7, d), Link(c, 1, d)], [Link(a, 7, e), Link(d, 1, e)], [Link(a, 7, f), Link(e, 1, f)], e);
    AdjacencyOfOne(Link(o, 10, a), e);
    AdjacencyOfOne(Link(o, 1, b), e);
    AdjacencyOfTwo(Link(a, 7, c), Link(b, 1, c), e);
    AdjacencyOfTwo(Link(a, 7, d), Link(c, 1, d), e);
    AdjacencyOfTwo(Link(a, 7, e), Link(d, 1, e), e);
    AdjacencyOfTwo(Link(a, 7, f), Link(e, 1, f), e);
  }

  lemma ExampleFuelLists(o: string, a: string, b: string, c: string, d: string, e: string, f: string)
    requires Distinct7(o, a, b, c, d, e, f)
    ensures UsedInOf(ExampleLinks(o, a, b, c, d, e, f), f) == []
    ensures UsesOf(ExampleLinks(o, a, b, c, d, e, f), f) == [Edge(a, 7), Edge(e, 1)]
  {
    AdjacencyOfSix([Link(o, 10, a)], [Link(o, 1, b)], [Link(a, 7, c), Link(b, 1, c)], [Link(a, 7, d), Link(c, 1, d)], [Link(a, 7, e), Link(d, 1, e)], [Link(a, 7, f), Link(e, 1, f)], f);
    AdjacencyOfOne(Link(o, 10, a), f);
    AdjacencyOfOne(Link(o, 1, b), f);
    AdjacencyOfTwo(Link(a, 7, c), Link(b, 1, c), f);
    AdjacencyOfTwo(Link(a, 7, d), Link(c, 1, d), f);
    AdjacencyOfTwo(Link(a, 7, e), Link(d, 1, e), f);
    AdjacencyOfTwo(Link(a, 7, f), Link(e, 1, f), f);
  }

  /** The published example's products are the six names other than `o`. */
  lemma ExampleProducts(rs: seq<Recipe>, o: string, a: string, b: string, c: string, d: string, e: string, f: string)
    requires IsExampleList(rs, o, a, b, c, d, e, f)
    ensures Products(rs) == {a, b, c, d, e, f}
  {
    assert rs[0] in rs && rs[1] in rs && rs[2] in rs && rs[3] in rs && rs[4] in rs && rs[5] in rs;
  }

  /** Every ingredient of the published example is `o` or a product, so
      construction succeeds when `o` is ORE. */
  lemma ExampleDeclared(rs: seq<Recipe>, o: string, a: string, b: string, c: string, d: string, e: string, f: string)
    requires IsExampleList(rs, o, a, b, c, d, e, f)
    requires o == Ore
    ensures AllIngredientsDeclared(rs)
  {
    ExampleProducts(rs, o, a, b, c, d, e, f);
    forall r, ing | r in rs && ing in r.ingredients
      ensures ing.name == Ore || ing.name in Products(rs)
    {
      var i :| 0 <= i < |rs| && rs[i] == r;
    }
  }

  /** With distinct names every product of the published example has one
      recipe, so each recipe is the last one for its product. */
  lemma ExampleLast(rs: seq<Recipe>, o: string, a: string, b: string, c: string, d: string, e: string, f: string)
    requires IsExampleList(rs, o, a, b, c, d, e, f)
    requires Distinct7(o, a, b, c, d, e, f)
    ensures forall i :: 0 <= i < 6 ==> IsLastRecipeFor(rs, i)
  {
  }

  /** The published example's graph over seven reagent names. */
  predicate ExampleShape(g: Graph, o: string, a: string, b: string, c: string, d: string, e: string, f: string)
  {
    && g.Keys == {o, a, b, c, d, e, f}
    && g[o] == Node(o, 1, [], [Edge(a, 10), Edge(b, 1)])
    && g[a] == Node(a, 10, [Edge(o, 10)], [Edge(c, 7), Edge(d, 7), Edge(e, 7), Edge(f, 7)])
    && g[b] == Node(b, 1, [Edge(o, 1)], [Edge(c, 1)])
    && g[c] == Node(c, 1, [Edge(a, 7), Edge(b, 1)], [Edge(d, 1)])
    && g[d] == Node(d, 1, [Edge(a, 7), Edge(c, 1)], [Edge(e, 1)])
    && g[e] == Node(e, 1, [Edge(a, 7), Edge(d, 1)], [Edge(f, 1)])
    && g[f] == Node(f, 1, [Edge(a, 7), Edge(e, 1)], [])
  }

  /** A node of a built graph, read off its last recipe and its links. */
  lemma BuiltNode(recipes: seq<Recipe>, i: int)
    requires Build(recipes).Success? && 0 <= i < |recipes| && IsLastRecipeFor(recipes, i)
    ensures var x := recipes[i].product;
            Build(recipes).value[x] == Node(x, recipes[i].batchSize, UsesOf(CollectLinks(recipes), x), UsedInOf(CollectLinks(recipes), x))
  {
    BuiltGraphShape(recipes);
    assert recipes[i] in recipes;
  }

  /** The ORE node of a built graph when no recipe produces ORE. */
  lemma BuiltOre(recipes: seq<Recipe>)
    requires Build(recipes).Success? && Ore !in Products(recipes)
    ensures Build(recipes).value[Ore] == Node(Ore, 1, UsesOf(CollectLinks(recipes), Ore), UsedInOf(CollectLinks(recipes), Ore))
  {
    BuiltGraphShape(recipes);
  }

  /** What the node proofs below need to know about a recipe list: it builds,
      with the published example's reagents as keys, one last recipe per
      product in the published order, and the published example's links. */
  predicate BuildsLikeExample(rs: seq<Recipe>, o: string, a: string, b: string, c: string, d: string, e: string, f: string)
  {
    && Distinct7(o, a, b, c, d, e, f) && o == Ore
    && Build(rs).Success? && Build(rs).value.Keys == {o, a, b, c, d, e, f}
    && Ore !in Products(rs)
    && |rs| == 6
    && rs[0].product == a && rs[1].product == b && rs[2].product == c
    && rs[3].product == d && rs[4].product == e && rs[5].product == f
    && rs[0].batchSize == 10 && rs[1].batchSize == 1 && rs[2].batchSize == 1
    && rs[3].batchSize == 1 && rs[4].batchSize == 1 && rs[5].batchSize == 1
    && (forall i :: 0 <= i < 6 ==> IsLastRecipeFor(rs, i))
    && CollectLinks(rs) == ExampleLinks(o, a, b, c, d, e, f)
  }

  /** Construction of the published example succeeds, with its reagents as keys. */
  lemma ExampleBuildKeys(rs: seq<Recipe>, o: string, a: string, b: string, c: string, d: string, e: string, f: string)
    requires IsExampleList(rs, o, a, b, c, d, e, f)
    requires Distinct7(o, a, b, c, d, e, f) && o == Ore
    ensures Build(rs).Success?
    ensures Build(rs).value.Keys == {o, a, b, c, d, e, f}
  {
    ExampleDeclared(rs, o, a, b, c, d, e, f);
    ExampleProducts(rs, o, a, b, c, d, e, f);
    BuiltGraphShape(rs);
  }

  /** No recipe of the published example produces ORE. */
  lemma ExampleOreUnproduced(rs: seq<Recipe>, o: string, a: string, b: string, c: string, d: string, e: string, f: string)
    requires IsExampleList(rs, o, a, b, c, d, e, f)
    requires Distinct7(o, a, b, c, d, e, f) && o == Ore
    ensures Ore !in Products(rs)
  {
    ExampleProducts(rs, o, a, b, c, d, e, f);
    assert o !in {a, b, c, d, e, f};
  }

  /** The published example's recipes meet those facts. */
  lemma ExampleBuildFacts(rs: seq<Recipe>, o: string, a: string, b: string, c: string, d: string, e: string, f: string)
    requires IsExampleList(rs, o, a, b, c, d, e, f)
    requires Distinct7(o, a, b, c, d, e, f) && o == Ore
    ensures BuildsLikeExample(rs, o, a, b, c, d, e, f)
  {
    ExampleBuildKeys(rs, o, a, b, c, d, e, f);
    ExampleOreUnproduced(rs, o, a, b, c, d, e, f);
    ExampleLast(rs, o, a, b, c, d, e, f);
    ExampleLinksCollected(rs, o, a, b, c, d, e, f);
  }

  /** The ORE, A, B and C nodes of the built graph. */
  lemma ExampleBuiltUpper(rs: seq<Recipe>, o: string, a: string, b: string, c: string, d: string, e: string, f: string)
    requires IsExampleList(rs, o, a, b, c, d, e, f)
    requires Distinct7(o, a, b, c, d, e, f) && o == Ore
    ensures Build(rs).Success?
    ensures var g := Build(rs).value;
            && g[o] == Node(o, 1, [], [Edge(a, 10), Edge(b, 1)])
            && g[a] == Node(a, 10, [Edge(o, 10)], [Edge(c, 7), Edge(d, 7), Edge(e, 7), Edge(f, 7)])
            && g[b] == Node(b, 1, [Edge(o, 1)], [Edge(c, 1)])
            && g[c] == Node(c, 1, [Edge(a, 7), Edge(b, 1)], [Edge(d, 1)])
  {
    ExampleBuildFacts(rs, o, a, b, c, d, e, f);
    BuiltOre(rs);
    BuiltNode(rs, 0);
    BuiltNode(rs, 1);
    BuiltNode(rs, 2);
    ExampleOreLists(o, a, b, c, d, e, f);
    ExampleALists(o, a, b, c, d, e, f);
    ExampleBLists(o, a, b, c, d, e, f);
    ExampleCLists(o, a, b, c, d, e, f);
  }

  /** The D, E and FUEL nodes of the built graph. */
  lemma ExampleBuiltLower(rs: seq<Recipe>, o: string, a: string, b: string, c: string, d: string, e: string, f: string)
    requires IsExampleList(rs, o, a, b, c, d, e, f)
    requires Distinct7(o, a, b, c, d, e, f) && o == Ore
    ensures Build(rs).Success?
    ensures var g := Build(rs).value;
            && g[d] == Node(d, 1, [Edge(a, 7), Edge(c, 1)], [Edge(e, 1)])
            && g[e] == Node(e, 1, [Edge(a, 7), Edge(d, 1)], [Edge(f, 1)])
            && g[f] == Node(f, 1, [Edge(a, 7), Edge(e, 1)], [])
  {
    ExampleBuildFacts(rs, o, a, b, c, d, e, f);
    BuiltNode(rs, 3);
    BuiltNode(rs, 4);
    BuiltNode(rs, 5);
    ExampleDLists(o, a, b, c, d, e, f);
    ExampleELists(o, a, b, c, d, e, f);
    ExampleFuelLists(o, a, b, c, d, e, f);
  }

  /** Building the published example's recipes yields its graph. */
  lemma ExampleBuilds(o: string, a: string, b: string, c: string, d: string, e: string, f: string)
    requires Distinct7(o, a, b, c, d, e, f) && o == Ore
    ensures Build(ExampleRecipes(o, a, b, c, d, e, f)).Success?
    ensures ExampleShape(Build(ExampleRecipes(o, a, b, c, d, e, f)).value, o, a, b, c, d, e, f)
  {
    var rs := ExampleRecipes(o, a, b, c, d, e, f);
    ExampleListIs(o, a, b, c, d, e, f);
    ExampleBuildKeys(rs, o, a, b, c, d, e, f);
    ExampleBuiltUpper(rs, o, a, b, c, d, e, f);
    ExampleBuiltLower(rs, o, a, b, c, d, e, f);
  }

  lemma PublishedNamesDistinct()
    ensures Distinct7("ORE", "A", "B", "C", "D", "E", "FUEL")
  {
  }

  /** Two graphs of the published example's shape are the same graph. */
  lemma PublishedShapeUnique(g: Graph, g': Graph)
    requires PublishedShape(g) && PublishedShape(g')
    ensures g == g'
  {
    forall x | x in g
      ensures g[x] == g'[x]
    {
    }
  }

  /** Building the published recipes yields exactly the published graph. */
  lemma PublishedBuilds()
    ensures Build(PublishedRecipes) == Success(Published)
  {
    PublishedNamesDistinct();
    ExampleBuilds("ORE", "A", "B", "C", "D", "E", "FUEL");
    var g := Build(PublishedRecipes).value;
    assert PublishedShape(g);
    PublishedIsShaped();
    PublishedShapeUnique(g, Published);
  }

  /** Every consumer of `x` sits below `x` and takes a non-negative amount. */
  predicate ConsumersBelow(g: Graph, h: Heights, x: string)
    requires x in g && g.Keys <= h.Keys
  {
    forall e :: e in g[x].usedIn ==> e.node in g && h[e.node] < h[x] && e.perBatch >= 0
  }

  lemma ShapeUpperConsumersBelow(g: Graph, h: Heights)
    requires PublishedShape(g) && PublishedLevels(h)
    ensures ConsumersBelow(g, h, "ORE") && ConsumersBelow(g, h, "A") && ConsumersBelow(g, h, "B")
  {
  }

  lemma ShapeLowerConsumersBelow(g: Graph, h: Heights)
    requires PublishedShape(g) && PublishedLevels(h)
    ensures ConsumersBelow(g, h, "C") && ConsumersBelow(g, h, "D") && ConsumersBelow(g, h, "E")
    ensures ConsumersBelow(g, h, "FUEL")
  {
  }

  /** The heights rank every consumer below its ingredient, every batch size
      is positive, and every per-batch amount is non-negative. */
  lemma ShapeLayered(g: Graph, h: Heights)
    requires PublishedShape(g) && PublishedLevels(h)
    ensures Layered(g, h) && NonNegative(g)
  {
    ShapeUpperConsumersBelow(g, h);
    ShapeLowerConsumersBelow(g, h);
    forall x | x in g
      ensures g[x].batchSize > 0 && ConsumersBelow(g, h, x)
    {
      assert x in {"ORE", "A", "B", "C", "D", "E", "FUEL"};
    }
  }

  /** Each of E, D, C and B is needed once per fuel. */
  lemma ShapeSingleUnits(g: Graph, h: Heights)
    requires Layered(g, h) && PublishedShape(g)
    ensures Requirement(g, h, "E", "FUEL", 1) == 1
    ensures Requirement(g, h, "D", "FUEL", 1) == 1
    ensures Requirement(g, h, "C", "FUEL", 1) == 1
    ensures Requirement(g, h, "B", "FUEL", 1) == 1
  {
    assert CeilDiv(1, 1) == 1;
    assert Requirement(g, h, "FUEL", "FUEL", 1) == 1;
    SingleConsumer(g, h, "E", "FUEL", 1, "FUEL", 1);
    SingleConsumer(g, h, "D", "E", 1, "FUEL", 1);
    SingleConsumer(g, h, "C", "D", 1, "FUEL", 1);
    SingleConsumer(g, h, "B", "C", 1, "FUEL", 1);
  }

  /** A consumer that needs one unit of the fuel per fuel, made in batches of
      one, and takes `p` units of its ingredient per batch. */
  predicate UnitConsumer(g: Graph, h: Heights, e: Edge, p: int)
    requires Layered(g, h)
  {
    e.perBatch == p && e.node in g && g[e.node].batchSize == 1 && Requirement(g, h, e.node, Fuel, 1) == 1
  }

  /** A unit consumer in position `k` adds its per-batch amount to the running sum. */
  lemma UnitConsumerStep(g: Graph, h: Heights, x: string, k: nat, p: int)
    requires Layered(g, h) && x in g && 0 < k <= |g[x].usedIn|
    requires UnitConsumer(g, h, g[x].usedIn[k - 1], p)
    ensures ConsumerSum(g, h, x, k, Fuel, 1) == ConsumerSum(g, h, x, k - 1, Fuel, 1) + p
  {
    assert Batches(1, 1) == 1;
  }

  /** The first `k` consumers of `x` are unit consumers taking `p` units each:
      together they need `p * k` units of `x`. */
  lemma {:induction false} UniformUnitConsumers(g: Graph, h: Heights, x: string, k: nat, p: int)
    requires Layered(g, h) && x in g && k <= |g[x].usedIn|
    requires forall i :: 0 <= i < k ==> UnitConsumer(g, h, g[x].usedIn[i], p)
    ensures ConsumerSum(g, h, x, k, Fuel, 1) == p * k
  {
    if k > 0 {
      UniformUnitConsumers(g, h, x, k - 1, p);
      UnitConsumerStep(g, h, x, k, p);
      assert p * k == p * (k - 1) + p;
    }
  }

  /** A is needed by C, D, E and FUEL, seven per batch of one: 28 per fuel. */
  lemma ShapeA(g: Graph, h: Heights)
    requires Layered(g, h) && PublishedShape(g)
    ensures Requirement(g, h, "A", "FUEL", 1) == 28
  {
    ShapeSingleUnits(g, h);
    assert Requirement(g, h, "FUEL", "FUEL", 1) == 1;
    var es := g["A"].usedIn;
    assert UnitConsumer(g, h, es[0], 7) && UnitConsumer(g, h, es[1], 7);
    assert UnitConsumer(g, h, es[2], 7) && UnitConsumer(g, h, es[3], 7);
    forall i | 0 <= i < 4
      ensures UnitConsumer(g, h, es[i], 7)
    {
      assert i == 0 || i == 1 || i == 2 || i == 3;
    }
    UniformUnitConsumers(g, h, "A", 4, 7);
  }

  /** Ore for one fuel of the published example: A is needed 28 times, three
      batches of ten at ten ore each, and B once, at one ore. */
  lemma ShapeCost(g: Graph, h: Heights)
    requires Layered(g, h) && PublishedShape(g)
    ensures Requirement(g, h, "ORE", "FUEL", 1) == 31
  {
    ShapeA(g, h);
    ShapeSingleUnits(g, h);
    SharedIngredient(g, h, "ORE", "A", 10, "B", 1, "FUEL", 1);
    assert CeilDiv(28, 10) == 3 && CeilDiv(1, 1) == 1;
  }

  /** One fuel of the published example takes 31 ore: A is needed by four
      consumers (28 units, three batches of ten), B by one; the same holds of
      the graph built from the published recipes. */
  lemma PublishedExampleCost()
    ensures Layered(Published, PublishedHeights)
    ensures TotalOreUsedInOneFuel(Published, PublishedHeights) == 31
    ensures Build(PublishedRecipes).Success? && Layered(Build(PublishedRecipes).value, PublishedHeights)
    ensures TotalOreUsedInOneFuel(Build(PublishedRecipes).value, PublishedHeights) == 31
  {
    assert Layered(Published, PublishedHeights) && TotalOreUsedInOneFuel(Published, PublishedHeights) == 31 by {
      PublishedIsShaped();
      ShapeLayered(Published, PublishedHeights);
      ShapeCost(Published, PublishedHeights);
    }
    PublishedBuilds();
  }
}

=== FILE: yield_search.dfy ===
/**
 The yield search: how much fuel a budget of ore buys. A doubling phase
 brackets the answer, then a converge phase steps forward by a
 proportional amount of at least one until the budget is reached.
 */
module YieldSearch {
  import opened CsArith
  import opened RecipeGraph
  import opened CostResolver

  /** Ore needed for `fuels` units of fuel. */
  function Cost(g: Graph, h: Heights, fuels: int): (r: int)
    requires Layered(g, h) && Ore in g
    ensures NonNegative(g) && fuels >= 0 ==> r >= 0
  {
    Requirement(g, h, Ore, Fuel, fuels)
  }

  /** Ore needed for a single unit of fuel. */
  function TotalOreUsedInOneFuel(g: Graph, h: Heights): (r: int)
    requires Layered(g, h) && Ore in g
    ensures NonNegative(g) ==> r >= 0
  {
    Cost(g, h, 1)
  }

  /** One fuel is the cheapest positive amount: any `n >= 1` fuel costs at
      least the ore for one, and nothing when one needs no ore. */
  lemma OneFuelIsCheapest(g: Graph, h: Heights, n: int)
    requires Layered(g, h) && NonNegative(g) && Ore in g && n >= 1
    ensures TotalOreUsedInOneFuel(g, h) <= Cost(g, h, n)
    ensures TotalOreUsedInOneFuel(g, h) == 0 ==> Cost(g, h, n) == 0
  {
    RequirementMonotone(g, h, Ore, Fuel, 1, n);
    if TotalOreUsedInOneFuel(g, h) == 0 {
      ZeroForOneIsZeroForAll(g, h, Ore, Fuel, n);
    }
  }

  /** The search runs on a resolvable graph, and `bound` is a trial whose cost
      exceeds both the budget and half of it (C# `amount / 2`), so that both
      phases stop. */
  predicate Searchable(g: Graph, h: Heights, amount: int, bound: nat)
  {
    && Layered(g, h) && NonNegative(g) && Ore in g
    && Cost(g, h, bound) > amount
    && Cost(g, h, bound) > TruncDiv(amount, 2)
  }

  /** A trial cheaper than `bound` lies below `bound`. */
  lemma BelowBound(g: Graph, h: Heights, amount: int, bound: nat, fuels: int)
    requires Searchable(g, h, amount, bound)
    requires Cost(g, h, fuels) < Cost(g, h, bound)
    ensures fuels < bound
  {
    if fuels >= bound {
      RequirementMonotone(g, h, Ore, Fuel, bound, fuels);
    }
  }

  /** Doubling phase: double the trial until its cost exceeds half the budget.
      The result is the first trial of the doubling sequence from `fuels`
      that does, so the trial before it (half of it) did not. */
  function Bracket(g: Graph, h: Heights, amount: int, bound: nat, fuels: nat): (r: nat)
    requires Searchable(g, h, amount, bound) && fuels >= 1
    ensures r >= fuels
    ensures Cost(g, h, r) > TruncDiv(amount, 2)
    ensures r == fuels || (r % 2 == 0 && fuels <= r / 2 && Cost(g, h, r / 2) <= TruncDiv(amount, 2))
    decreases bound - fuels
  {
    if Cost(g, h, fuels) > TruncDiv(amount, 2) then fuels
    else
      BelowBound(g, h, amount, bound, fuels);
      Bracket(g, h, amount, bound, fuels * 2)
  }

  /** `f` doubled `k` times, the trials of the doubling phase. */
  function Doubled(f: nat, k: nat): nat
  {
    if k == 0 then f else 2 * Doubled(f, k - 1)
  }

  lemma {:induction false} DoubledShift(f: nat, k: nat)
    ensures Doubled(f * 2, k) == Doubled(f, k + 1)
  {
    if k > 0 {
      DoubledShift(f, k - 1);
    }
  }

  /** The first `k` trials doubling from `f` each cost no more than half the budget. */
  predicate CheapDoublings(g: Graph, h: Heights, amount: int, f: nat, k: nat)
    requires Layered(g, h) && Ore in g
  {
    forall j: nat :: j < k ==> Cost(g, h, Doubled(f, j)) <= TruncDiv(amount, 2)
  }

  lemma CheapDoublingsShift(g: Graph, h: Heights, amount: int, f: nat, k: nat)
    requires Layered(g, h) && Ore in g
    requires Cost(g, h, f) <= TruncDiv(amount, 2) && CheapDoublings(g, h, amount, f * 2, k)
    ensures CheapDoublings(g, h, amount, f, k + 1)
  {
    forall j: nat | j < k + 1
      ensures Cost(g, h, Doubled(f, j)) <= TruncDiv(amount, 2)
    {
      if j > 0 {
        DoubledShift(f, j - 1);
      }
    }
  }

  /** The doubling phase returns the start doubled `k` times, for the first `k`
      at which the trial costs more than half the budget: every trial it
      doubled past cost no more than half. */
  lemma {:induction false} BracketIsDoubling(g: Graph, h: Heights, amount: int, bound: nat, fuels: nat)
    requires Searchable(g, h, amount, bound) && fuels >= 1
    ensures exists k: nat :: Bracket(g, h, amount, bound, fuels) == Doubled(fuels, k) && CheapDoublings(g, h, amount, fuels, k)
    decreases bound - fuels
  {
    if Cost(g, h, fuels) > TruncDiv(amount, 2) {
      assert Bracket(g, h, amount, bound, fuels) == Doubled(fuels, 0) && CheapDoublings(g, h, amount, fuels, 0);
    } else {
      BelowBound(g, h, amount, bound, fuels);
      BracketIsDoubling(g, h, amount, bound, fuels * 2);
      var k: nat :| Bracket(g, h, amount, bound, fuels * 2) == Doubled(fuels * 2, k) && CheapDoublings(g, h, amount, fuels * 2, k);
      DoubledShift(fuels, k);
      CheapDoublingsShift(g, h, amount, fuels, k);
      assert Bracket(g, h, amount, bound, fuels) == Doubled(fuels, k + 1);
    }
  }

  /** Converge step: the remaining budget divided by the average cost per
      fuel of the whole budget (`amount / fuels`, not `used / fuels`),
      floored, and never below one. */
  function Step(amount: int, used: int, fuels: int): (s: int)
    requires 0 <= used < amount && fuels >= 1
    ensures s >= 1
    ensures (amount - used) * fuels < (s + 1) * amount
    ensures s == 1 || s * amount <= (amount - used) * fuels
  {
    var q := (amount - used) * fuels / amount;
    assert (q + 1) * amount == q * amount + amount;
    Max(1, q)
  }

  /** Converge phase: while the trial costs less than the budget, step forward. */
  function Converge(g: Graph, h: Heights, amount: int, bound: nat, fuels: nat): (r: nat)
    requires Searchable(g, h, amount, bound) && fuels >= 1
    ensures r >= fuels
    ensures Cost(g, h, r) >= amount
    ensures Cost(g, h, fuels) < amount ==> r > fuels
    ensures Cost(g, h, fuels) >= amount ==> r == fuels
    decreases bound - fuels
  {
    var used := Cost(g, h, fuels);
    if used >= amount then fuels
    else
      BelowBound(g, h, amount, bound, fuels);
      Converge(g, h, amount, bound, fuels + Step(amount, used, fuels))
  }

  /** One doubling: a trial within half the budget hands over to its double. */
  lemma BracketDoubles(g: Graph, h: Heights, amount: int, bound: nat, fuels: nat)
    requires Searchable(g, h, amount, bound) && fuels >= 1
    requires Cost(g, h, fuels) <= TruncDiv(amount, 2)
    ensures Bracket(g, h, amount, bound, fuels) == Bracket(g, h, amount, bound, fuels * 2)
  {
  }

  /** One converge step: an affordable trial hands over to the stepped trial. */
  lemma ConvergeSteps(g: Graph, h: Heights, amount: int, bound: nat, fuels: nat, used: int)
    requires Searchable(g, h, amount, bound) && fuels >= 1
    requires used == Cost(g, h, fuels) && used < amount
    ensures used >= 0
    ensures Converge(g, h, amount, bound, fuels) == Converge(g, h, amount, bound, fuels + Step(amount, used, fuels))
  {
  }

  /** The converge phase stops at the first trial of its step sequence that
      costs at least the budget: either it never moved, or its final trial is
      one step past an affordable trial. */
  lemma {:induction false} ConvergeLastStep(g: Graph, h: Heights, amount: int, bound: nat, fuels: nat)
    requires Searchable(g, h, amount, bound) && fuels >= 1
    ensures var r := Converge(g, h, amount, bound, fuels);
            || r == fuels
            || exists p: nat :: fuels <= p < r && 0 <= Cost(g, h, p) < amount && r == p + Step(amount, Cost(g, h, p), p)
    decreases bound - fuels
  {
    var used := Cost(g, h, fuels);
    if used < amount {
      BelowBound(g, h, amount, bound, fuels);
      ConvergeSteps(g, h, amount, bound, fuels, used);
      var next := fuels + Step(amount, used, fuels);
      ConvergeLastStep(g, h, amount, bound, next);
      var r := Converge(g, h, amount, bound, next);
      if r == next {
        assert fuels <= fuels < r && 0 <= Cost(g, h, fuels) < amount && r == fuels + Step(amount, Cost(g, h, fuels), fuels);
      }
    }
  }

  /** Fuel obtainable from `amount` ore, as the search computes it: the final
      trial minus one. */
  function AmountOfFuelFromOre(g: Graph, h: Heights, amount: int, bound: nat): (r: int)
    requires Searchable(g, h, amount, bound)
    ensures r >= 0
    ensures Cost(g, h, r + 1) >= amount
  {
    Converge(g, h, amount, bound, Bracket(g, h, amount, bound, 1)) - 1
  }

  /** The answer plus one is the trial the search stopped on: the end of the
      doubling phase, or one converge step past an affordable trial. */
  lemma AnswerLastStep(g: Graph, h: Heights, amount: int, bound: nat)
    requires Searchable(g, h, amount, bound)
    ensures var r := AmountOfFuelFromOre(g, h, amount, bound);
            var start := Bracket(g, h, amount, bound, 1);
            || r + 1 == start
            || exists p: nat :: start <= p < r + 1 && 0 <= Cost(g, h, p) < amount && r + 1 == p + Step(amount, Cost(g, h, p), p)
  {
    ConvergeLastStep(g, h, amount, bound, Bracket(g, h, amount, bound, 1));
  }

  /** When a single fuel already costs the whole budget, the search yields nothing. */
  lemma ZeroYieldBoundary(g: Graph, h: Heights, amount: int, bound: nat)
    requires Searchable(g, h, amount, bound)
    requires Cost(g, h, 1) >= amount
    ensures AmountOfFuelFromOre(g, h, amount, bound) == 0
  {
    if Cost(g, h, 1) == 0 {
      ZeroForOneIsZeroForAll(g, h, Ore, Fuel, bound);
    }
    assert Cost(g, h, 1) > TruncDiv(amount, 2);
    assert Bracket(g, h, amount, bound, 1) == 1;
  }

  /** Every amount of fuel that costs strictly less than the budget is at most
      the search's answer. */
  lemma YieldCoversCheaperAmounts(g: Graph, h: Heights, amount: int, bound: nat, n: int)
    requires Searchable(g, h, amount, bound)
    requires Cost(g, h, n) < amount
    ensures n <= AmountOfFuelFromOre(g, h, amount, bound)
  {
    var r := AmountOfFuelFromOre(g, h, amount, bound);
    if n > r {
      RequirementMonotone(g, h, Ore, Fuel, r + 1, n);
    }
  }

  /** `r` is the largest amount of fuel `amount` ore pays for: one more costs
      too much, and `r` itself is affordable unless it is zero. */
  predicate LargestAffordable(g: Graph, h: Heights, amount: int, r: int)
    requires Layered(g, h) && Ore in g
  {
    && r >= 0
    && Cost(g, h, r + 1) > amount
    && (r > 0 ==> Cost(g, h, r) <= amount)
  }

  /** The search as intended: the largest amount of fuel the budget pays for.
      The converge phase runs while the trial is still affordable, and any
      overshoot is walked back one unit at a time. */
  method MaxFuel(g: Graph, h: Heights, amount: int, bound: nat) returns (r: int)
    requires Searchable(g, h, amount, bound)
    ensures LargestAffordable(g, h, amount, r)
    ensures forall n :: 0 <= n && Cost(g, h, n) <= amount ==> n <= r
  {
    var fuels := Bracket(g, h, amount, bound, 1);
    var used := Cost(g, h, fuels);
    while used <= amount
      invariant fuels >= 1 && used == Cost(g, h, fuels)
      decreases bound - fuels
    {
      BelowBound(g, h, amount, bound, fuels);
      fuels := fuels + (if used < amount then Step(amount, used, fuels) else 1);
      used := Cost(g, h, fuels);
    }
    while fuels > 1 && Cost(g, h, fuels - 1) > amount
      invariant fuels >= 1 && Cost(g, h, fuels) > amount
      decreases fuels
    {
      fuels := fuels - 1;
    }
    r := fuels - 1;
    forall n | 0 <= n && Cost(g, h, n) <= amount
      ensures n <= r
    {
      if n > r {
        RequirementMonotone(g, h, Ore, Fuel, fuels, n);
      }
    }
  }
}
